=== FILE: README.md ===
# po-translator: the markup guard and the catalog driver, in Dafny

po-translator machine-translates the entries of a gettext PO catalog
through a web translation service (DeepL or Google). Before a message is
sent, a markup guard masks every span an exclude pattern matches (Sphinx
roles, bold, italics, literals, links) with a placeholder `XASDF<nn>`,
where `nn` is the pattern's index zero-padded to two digits. After the
translation comes back it puts the spans back, adding a space after a span
whose placeholder the translation fused to a following letter or digit.
The driver walks the catalog and decides which entries to send. It writes
each translation into `msgstr` and clears the entry's fuzzy flag.

This project models that core as pure functions over `seq<char>`:

- `Strings`: the Python `str` operations the guard uses. These are `in`,
  `find`, `replace` (a leftmost, non-overlapping scan, where an empty
  needle inserts the replacement everywhere), indexing, and `isalnum`.
  Indexing is modelled with negative positions as well, although the
  guard never reads one: its index is `find(...) + len(placeholder)`,
  which is at least 6. A prefix test, `StartsWith`, is a helper for
  stating them.
- `Placeholders`: the placeholder tokens. `Dicts`: the placeholder map as
  an insertion-ordered Python dict.
- `MarkupGuard`: protect, restore and the rule that enables the patterns.
- `RoundTrip`: when restore undoes protect, and an example where it does not.
- `Driver`: per-entry selection, `__translate_func` and the loop of
  `translate`, which stops at the first backend error.
- `Api`: response classification, the letter count, timestamp and id
  arithmetic, and the backend factory.

An exclude pattern is an abstract function from a text to the list of its
matches (`re.findall`). The backend is an abstract function from a text to
a translation or an error. The clock and the random draw are parameters.

Observations the proofs make precise:

- Every match of one pattern shares the pattern's placeholder, so the
  map keeps only the last match (`MarkupGuard.ProtectLookup`).
- Restore decides about the extra space from the first occurrence of a
  placeholder only (`MarkupGuard.FirstOccurrenceDecides`).
- When a placeholder is absent, `find` returns -1, and the code reads the
  character at `-1 + len(placeholder)`. For a seven-character key that is
  position 6. The read is harmless: the
  replacement that follows finds nothing to replace
  (`MarkupGuard.RestoreOne`).
- From pattern index 100 on, placeholders collide: `XASDF10` occurs
  inside `XASDF100` (`Placeholders.WidePlaceholderCollision`). In general,
  every such placeholder begins with the placeholder of a pattern between
  10 and 99, directly followed by a digit
  (`Placeholders.WidePlaceholderPrefix`).
- Restore undoes protect under these conditions
  (`RoundTrip.RestoreUndoesProtect`):
  - the text does not contain `XASDF`;
  - each pattern finds one span, repeated any number of times. The span is
    non-empty, begins and ends with a character that cannot occur in a
    placeholder, and does not contain `XASDF`;
  - no placeholder in the masked text is directly followed by a letter or
    a digit.

  The number of patterns is not bounded. The last condition already keeps
  every placeholder from pattern index 100 on out of the masked text,
  because such a placeholder is an earlier one fused to a digit
  (`RoundTrip.NoWideHoles`). The key of such a pattern can still be in the
  map when its match does not occur in the text. It is then absent from
  the text being restored and changes nothing (`RoundTrip.WideKeyAbsent`).

  Requiring only that no match contains an earlier placeholder is not
  enough. A pattern that matches `00` inside `XASDF00` breaks the round
  trip (`RoundTrip.UnguardedMatchBreaksRoundTrip`). One distinct span per
  pattern is needed as well. A pattern that finds `*` and `_` in `* _`
  masks both with `XASDF00`, and the map keeps only `_`. So the text comes
  back as `_ _` (`RoundTrip.TwoSpansBreakRoundTrip`).

## Model

| member | source | states |
|---|---|---|
| Strings.Find | po_translator/translator.py:61 | `str.find`: -1 exactly when the key does not occur; otherwise the key starts at the result and at no earlier position |
| Strings.ReplaceAll | po_translator/translator.py:50 | `str.replace` leaves the text unchanged when a non-empty needle does not occur in it |
| Strings.ReplaceAllAtFind | po_translator/translator.py:50 | for a non-empty needle that occurs, `str.replace` keeps the text before the position `find` reports, puts the replacement there, and continues on the text after that occurrence |
| Strings.ReplaceAllAt | po_translator/translator.py:50 | the same split holds at any position where the needle starts and starts nowhere earlier |
| Strings.PyIndex | po_translator/translator.py:63 | indexing `t[k]` succeeds exactly for `-len(t) <= k < len(t)`, counting negative `k` from the end; otherwise it raises `IndexError` (`None`) |
| Strings.FindThenIndex | po_translator/translator.py:61-63 | when the key occurs, reading `t[find + len(key)]` reads the character right after its first occurrence, and raises `IndexError` exactly when that occurrence ends the text |
| Strings.ReplaceAllSkip | po_translator/translator.py:50 | the replacement scan passes unchanged over a stretch where no occurrence of the needle starts |
| Strings.ContainsChar | po_translator/translator.py:40 | for a one-character string, the substring test `c in s` holds exactly when the character is an element of `s` |
| Strings.IsAlnumExactly | po_translator/translator.py:63 | `isalnum` (ASCII) holds for exactly the ten digits and the 26 upper-case and 26 lower-case letters, listed out as literals |
| Placeholders.Decimal | po_translator/translator.py:49 | `str(n)`: at least one digit, only digits, no leading zero, and a single digit exactly for `n < 10` |
| Placeholders.ParseDecimalInverse | po_translator/translator.py:49 | reading the decimal text of a number back gives the number |
| Placeholders.ZFill | po_translator/translator.py:49 | `zfill(width)`: the result is the longer of the input and `width` characters, ends with the input, and is padded with `0` on the left |
| Placeholders.Placeholder | po_translator/translator.py:49 | the key starts with `XASDF` and is built only from `X`, `A`, `S`, `D`, `F` and digits; `X` appears only at its head; below 100 it has 7 characters ending in the two digits of the index |
| Placeholders.PaddedIndexInverse | po_translator/translator.py:49 | the zero-padded index is all digits and reads back as the index |
| Placeholders.PlaceholderInjective | po_translator/translator.py:49 | different pattern indices give different keys |
| Placeholders.ShortPlaceholdersDistinct | po_translator/translator.py:49 | below 100, no pattern's key occurs inside another's |
| Placeholders.WidePlaceholderCollision | po_translator/translator.py:49 | from 100 on, keys collide: `XASDF10` is a proper prefix of `XASDF100` |
| Placeholders.WidePlaceholderPrefix | po_translator/translator.py:49 | every key from index 100 on begins with the key of an index between 10 and 99, followed by a digit |
| Placeholders.PlaceholderNoStart | po_translator/translator.py:49 | below 100, no occurrence of one key starts anywhere inside another key |
| Dicts.Lookup | po_translator/translator.py:51 | `d.get(k)` is `None` exactly when `k` is not a key |
| Dicts.Put | po_translator/translator.py:51 | `d[k] = v`: an existing key keeps its position among the keys, and a new key is appended at the end with its value |
| Dicts.PutLookup | po_translator/translator.py:51 | after `d[k] = v`, looking up `k` gives `v` and looking up any other key gives what it gave before |
| Dicts.PutUnique | po_translator/translator.py:51 | writing a key keeps the keys unique |
| Dicts.PutTwice | po_translator/translator.py:51 | writing a key twice is the same as writing only the second value: the last write wins |
| Dicts.LookupUnique | po_translator/translator.py:51 | with unique keys, the lookup of the key at position `j` finds the value stored at `j` |
| MarkupGuard.EnablePatterns | po_translator/translator.py:31-35 | the guard is off exactly when the pattern list is `None` or empty; otherwise every pattern is kept, in order |
| MarkupGuard.HasTriggerSubstring | po_translator/translator.py:39-41 | the trigger test holds exactly when one of the strings `` ` ``, `*`, `_` occurs in the text as a substring |
| MarkupGuard.Protect | po_translator/translator.py:38-52 | no map is returned exactly when the guard is off or the text has none of `` ` ``, `*`, `_`; then the text is returned unchanged |
| MarkupGuard.RestoreOne | po_translator/translator.py:61-68 | for one key: an absent key changes nothing; otherwise every occurrence becomes `match + " "` when the first occurrence is followed by a letter or digit, and `match` otherwise, including when it ends the text |
| MarkupGuard.RestoreAll | po_translator/translator.py:60-69 | when no key of the map occurs in the text, restore returns the text unchanged |
| MarkupGuard.Restore | po_translator/translator.py:54-58 | with no map, the translation is returned unchanged |
| MarkupGuard.GuardOff | po_translator/translator.py:38-58 | with the guard off, or no trigger character, the backend sees the message itself and its answer is stored unchanged |
| MarkupGuard.FirstOccurrenceDecides | po_translator/translator.py:61-68 | for any key and any match: when the first occurrence is followed by a blank, a later occurrence fused to a letter is restored without a space |
| MarkupGuard.MatchedPatternsSpec | po_translator/translator.py:46-51 | the patterns that add a key are listed in increasing order, and each of them found at least one match |
| MarkupGuard.MatchedPatternsComplete | po_translator/translator.py:46-51 | every pattern that found a match is listed among those that add a key |
| MarkupGuard.ApplyMatchesKeys | po_translator/translator.py:47-51 | the inner loop over one pattern's matches adds at most the pattern's own key, at the end of the map, and only when the pattern found a match and the key was absent |
| MarkupGuard.Working | po_translator/translator.py:44-51 | after the first `i` patterns the map has at most `i` entries |
| MarkupGuard.ApplyMatchesDict | po_translator/translator.py:47-51 | for one pattern, the map ends up with the pattern's key holding its last match, and no other key changes |
| MarkupGuard.WorkingDict | po_translator/translator.py:44-51 | after the first `i` patterns, the map has one entry per pattern that matched, in pattern order, holding that pattern's last match |
| MarkupGuard.ProtectPlaceholders | po_translator/translator.py:44-52 | the returned map has one entry per pattern that matched (so no more entries than patterns), keyed `XASDF` plus the zero-padded index and holding that pattern's last match |
| MarkupGuard.ProtectKeysUnique | po_translator/translator.py:46-51 | there is at most one key per pattern |
| MarkupGuard.ProtectLookup | po_translator/translator.py:46-51 | the key of pattern `k` maps to its last match, and is absent when the pattern found nothing |
| MarkupGuard.ProtectShortKeys | po_translator/translator.py:46-51 | with at most 100 patterns, every key has 7 characters and none occurs inside another |
| RoundTrip.ScanMatch | po_translator/translator.py:50 | replacing a guarded span in the working copy masks exactly the unmasked runs spelling it; no occurrence straddles a placeholder |
| RoundTrip.PieceReplaceTwice | po_translator/translator.py:48-50 | replacing the same match a second time changes nothing, so repeated matches of one pattern are harmless |
| RoundTrip.ExpandPieceReplace | po_translator/translator.py:50-51 | masking a span with its pattern's key never changes the text the working copy stands for |
| RoundTrip.ProtectLayout | po_translator/translator.py:44-51 | when every pattern finds one guarded span (repeated any number of times), then after the first `i` patterns the working copy is the source text with some spans masked by the keys of the patterns that matched, and unmasking them gives the source text back (`LayoutAfter`) |
| RoundTrip.LayoutStep | po_translator/translator.py:46-51 | when the next pattern finds one guarded span, its step keeps the working copy equal to the rendered layout, the layout standing for the source text, and every placeholder belonging to a matched pattern |
| RoundTrip.RestoreScan | po_translator/translator.py:68 | for a key below 100, when every placeholder in the working copy is below 100 and the text behind it has no `XASDF`, restore's `replace` substitutes exactly the placeholder pieces of that key |
| RoundTrip.AfterFirstScan | po_translator/translator.py:61-63 | for a key below 100, when every placeholder in the working copy is below 100, none is fused to a letter or digit, and the text behind it has no `XASDF`, the first occurrence of the key is never followed by a letter or digit |
| RoundTrip.WideKeyAbsent | po_translator/translator.py:60-68 | over a source text without `XASDF`, a key from index 100 on never occurs in a working copy whose placeholders are all below 100 and not fused, so restoring it changes nothing |
| RoundTrip.RestoreStep | po_translator/translator.py:60-68 | one key of the restore loop, when the map pairs each key with its pattern's span (`KeyedBy`), every placeholder belongs to a listed pattern and is below 100, none is fused, and the text behind the working copy has no `XASDF`: a key below 100 turns exactly its placeholders back into its span, a key from 100 on leaves the working copy as it is, and these conditions hold for the remaining keys |
| RoundTrip.RestoreLayout | po_translator/translator.py:60-69 | under the same conditions (`KeyedBy`, every placeholder listed and below 100, none fused, no `XASDF` behind the working copy), the restore loop, run over the keys in map order, unmasks every placeholder and yields the text the working copy stands for |
| RoundTrip.ExpectedDictSpans | po_translator/translator.py:46-51 | the map protect builds holds, for each matched pattern in order, that pattern's key and the span it masked |
| RoundTrip.NoWideHoles | po_translator/translator.py:49-50 | when every placeholder in the masked text belongs to one of the first `n` patterns and none of them is followed by a letter or digit, none belongs to a pattern from index 100 on, whatever `n` is |
| RoundTrip.RestoreUnfused | po_translator/translator.py:60-69 | a map keyed by the placeholders of some patterns, holding their spans (`KeyedBy`), restores a masked text whose placeholders all belong to those patterns, none fused, and whose text behind has no `XASDF`, to the text it stands for |
| RoundTrip.RestoreExpected | po_translator/translator.py:60-69 | for a source text without `XASDF`, restoring with that map a masked text that stands for the source text, whose placeholders all belong to matched patterns and none is fused, yields the source text |
| RoundTrip.RestoreUndoesProtect | po_translator/translator.py:38-69 | restore of protect is the identity on texts and patterns that meet the conditions listed above |
| RoundTrip.UnguardedMatchBreaksRoundTrip | po_translator/translator.py:46-68 | a pattern matching `00` inside `XASDF00` meets every other condition, and the restored text is `XASDF00`, not the source `*` |
| RoundTrip.TwoSpansBreakRoundTrip | po_translator/translator.py:46-68 | a pattern finding the two guarded spans `*` and `_` in `* _` meets every other condition; both are masked by `XASDF00`, and the restored text is `_ _`, not the source |
| Api.HandleResponse | po_translator/api.py:26-31 | only status 200 succeeds, with the body; 429 gives `TooManyRequests` whatever the body; any other status gives an error carrying it |
| Api.ICount | po_translator/api.py:53-54 | the count equals the number of `i` characters in the text |
| Api.ICountAppend | po_translator/api.py:53-54 | the count of a concatenation is the sum of the counts |
| Api.Timestamp | po_translator/api.py:61-66 | with no `i` the clock value is used unchanged; with `n > 0` letters the result is a multiple of `n + 1` in `(ts, ts + n + 1]` |
| Api.TimestampIsNextMultiple | po_translator/api.py:61-66 | that multiple is the least one above the clock |
| Api.RandomId | po_translator/api.py:56-59 | for a draw in `randint`'s inclusive range, the id is the draw times 1000: a multiple of 1000 in `[8_300_000_000, 8_399_998_000]` from which the draw is recovered |
| Api.LowerChar | po_translator/api.py:140 | an ASCII upper-case letter becomes the lower-case letter 32 code points further on; every other character is kept |
| Api.Lower | po_translator/api.py:140 | lower-casing keeps the length and maps each character through `LowerChar` |
| Api.LowerIdempotent | po_translator/api.py:140 | lower-casing twice is lower-casing once |
| Api.MakeTranslator | po_translator/api.py:134-146 | the factory succeeds exactly for `deepl` and `google` after lower-casing, picks DeepL exactly for `deepl`, passes the languages and proxies through, and otherwise fails with the `ValueError` message |
| Api.MakeTranslatorDefaults | po_translator/api.py:134-142 | called with no arguments, the factory builds a DeepL backend from `auto` to `en` with no proxies |
| Api.MakeTranslatorIgnoresCase | po_translator/api.py:140-146 | the factory gives the same answer for a name and for its lower-cased form |
| Api.MakeTranslatorUpperCase | po_translator/api.py:140-144 | `DeepL` and `GOOGLE` select the DeepL and Google backends |
| Driver.NewTranslator | po_translator/translator.py:31-35 | the translator keeps no patterns exactly when the exclude list is `None` or empty, and otherwise keeps them in order |
| Driver.Selected | po_translator/translator.py:83-90 | without `retranslate_fuzzy` an entry is sent exactly when it is neither fuzzy nor skipped as translated; with it, exactly when it is fuzzy or not skipped |
| Driver.TranslateEntry | po_translator/translator.py:71-78 | the backend is called on the masked message; a failure is passed on and leaves the entry alone; otherwise only `msgstr` changes, to the restored answer |
| Driver.EchoTranslatesToMessage | po_translator/translator.py:71-78 | with a backend that answers with its input, a message meeting the round-trip conditions becomes its own translation |
| Driver.Step | po_translator/translator.py:84-90 | an entry that is not selected is kept; a selected one is translated and its fuzzy flag cleared, or the error is passed on; `msgid` never changes |
| Driver.TranslateFrom | po_translator/translator.py:83-90 | for any per-entry step, from entry `i` on: each entry holds the result of its step until a step fails; the failing entry and every later entry are untouched, and the error is reported with its position |
| Driver.Translate | po_translator/translator.py:80-90 | the catalog keeps its length; every entry before the first failing step holds the result of `Step`; a failure is reported at that entry with its error, and it and every later entry are untouched |
| Driver.TranslateCatalog | po_translator/translator.py:83-90 | the in-place loop, which stops at the first failing entry, computes the same outcome as the fold `Translate` |
| Driver.TranslateKeepsMsgids | po_translator/translator.py:84-90 | no entry's `msgid` changes, whether the run finishes or stops at a failure |
| Driver.FuzzyEntriesKept | po_translator/translator.py:84-90 | without `retranslate_fuzzy`, every fuzzy entry comes out exactly as it went in |

## Left out

- HTTP requests, headers, proxies and JSON in `DeepLAPI.translate` and `GoogleTranslateAPI.translate` are not modelled (po_translator/api.py:96-131). Neither is the JSON text produced by `__get_post_data` (po_translator/api.py:68-94). These are network and library plumbing. The backend is an abstract function, and `Api.ApiError.TransportError` stands for whatever such a call raises besides the status errors.
- `time.time()` and `random.seed` / `random.randint` are parameters. `Api.Timestamp` takes the clock already converted to whole milliseconds, and `Api.RandomId` takes the draw.
- The regular-expression engine and the seven default patterns (po_translator/translator.py:16-24) are not modelled. A pattern is any function from a text to its list of matches.
- polib is not part of this model: loading the catalog, `save` and `entry.translated()`. The latter is an opaque per-entry flag, read before the entry is processed and not recomputed afterwards.
- po_translator/cli.py (argument parsing) and setup.py (packaging) have no modelled logic.
- `TooManyRequests.__str__` (po_translator/api.py:13-14) is only a message text.
- Driver.NewTranslator: takes the backend as a ready function, not the backend name. Building a backend from its name is `Api.MakeTranslator`.
- Strings.IsAlnum: covers ASCII letters and digits only. Python's `isalnum` also accepts other Unicode letters and digits, so a placeholder fused to such a character gets no space in this model.
- Strings.IsAlnumExactly: characterises the ASCII-only `Strings.IsAlnum`; non-ASCII letters and digits are not alphanumeric here (see the `Strings.IsAlnum` line).
- Api.LowerChar: maps ASCII capitals only; every other character, including non-ASCII capitals, is kept (see the `Api.Lower` line).
- Api.Lower: lower-cases ASCII only. Python's `lower` also changes non-ASCII characters. Only two non-ASCII characters lower-case to ASCII letters: the Kelvin sign (to `k`) and `İ` (to `i` plus a combining dot). Neither `k` nor `i` occurs in a backend name, so the factory's decision is unaffected.
- RoundTrip.RestoreUndoesProtect: is proved under a stronger condition than "no match contains an earlier placeholder". Each match must be a guarded span: non-empty, no placeholder character at either end, and no `XASDF` inside. `RoundTrip.UnguardedMatchBreaksRoundTrip` shows the weaker condition is not enough. Each pattern must find one distinct span; `RoundTrip.TwoSpansBreakRoundTrip` shows why.

=== FILE: api.dfy ===
/** The pure helpers of the translation backends: response classification,
    the DeepL request's letter count, timestamp and id arithmetic, and the
    factory that picks a backend by name. The clock and the random draw are
    parameters; the HTTP requests themselves are not modelled. */
module Api {
  import opened Results
  import opened Dicts

  /** Why a backend call failed: HTTP 429 (`TooManyRequests`), any other
      non-200 status, or a failure of the request or of decoding its answer,
      which this model does not look into. */
  datatype ApiError = TooManyRequests | StatusError(status: int) | TransportError

  /** `_APIBase.handle_response`: the status is checked for 429 first, then
      for anything other than 200; only a 200 answer yields its body. */
  function HandleResponse(status: int, body: string): (r: Result<string, ApiError>)
    ensures r.Success? <==> status == 200
    ensures r.Success? ==> r.value == body
    ensures status == 429 ==> r == Failure(TooManyRequests)
    ensures r.Failure? && r.error != TooManyRequests ==> r.error == StatusError(status) && status != 429
  {
    if status == 429 then Failure(TooManyRequests)
    else if status != 200 then Failure(StatusError(status))
    else Success(body)
  }

  /** `DeepLAPI.__get_i_count`: Python `text.count("i")`. */
  function ICount(text: string): (n: nat)
    decreases |text|
    ensures n == multiset(text)['i']
    ensures n <= |text|
  {
    if |text| == 0 then 0
    else
      assert text == [text[0]] + text[1..];
      (if text[0] == 'i' then 1 else 0) + ICount(text[1..])
  }

  /** The count of a concatenation is the sum of the counts. */
  lemma {:induction false} ICountAppend(a: string, b: string)
    ensures ICount(a + b) == ICount(a) + ICount(b)
    decreases |a|
  {
    if |a| == 0 {
      assert a + b == b;
    } else {
      assert (a + b)[1..] == a[1..] + b;
      ICountAppend(a[1..], b);
    }
  }

  /** Multiplying by a positive number keeps the order. */
  lemma MulLe(a: int, b: int, n: int)
    requires n > 0
    ensures a <= b ==> a * n <= b * n
  {
  }

  /** A multiple of `n` leaves no remainder. */
  lemma MultipleMod(q: int, n: int)
    requires n > 0
    ensures (q * n) % n == 0
  {
    var x := q * n;
    var d := q - x / n;
    assert x % n == x - (x / n) * n;
    assert x - (x / n) * n == d * n;
    MulLe(1, d, n);
    MulLe(d, -1, n);
  }

  /** `DeepLAPI.__get_timestamp` with the clock reading `clockMs`
      (`int(time.time() * 1000)`): unchanged when the text has no `i`,
      otherwise moved to the next multiple of `iCount + 1` strictly above
      the clock. Python's `%` agrees with Dafny's for a positive divisor. */
  function Timestamp(iCount: nat, clockMs: int): (r: int)
    ensures iCount == 0 ==> r == clockMs
    ensures iCount > 0 ==> r % (iCount + 1) == 0 && clockMs < r <= clockMs + iCount + 1
  {
    if iCount == 0 then clockMs
    else
      var n := iCount + 1;
      assert clockMs - clockMs % n + n == (clockMs / n + 1) * n;
      MultipleMod(clockMs / n + 1, n);
      clockMs - clockMs % n + n
  }

  /** The timestamp is the least multiple of `iCount + 1` above the clock. */
  lemma TimestampIsNextMultiple(iCount: nat, clockMs: int, m: int)
    requires iCount > 0 && m % (iCount + 1) == 0 && clockMs < m
    ensures Timestamp(iCount, clockMs) <= m
  {
    var n := iCount + 1;
    var q, p := clockMs / n, m / n;
    assert Timestamp(iCount, clockMs) == (q + 1) * n;
    assert m == p * n;
    assert q * n <= clockMs;
    MulLe(p, q, n);
    MulLe(q + 1, p, n);
  }

  /** The inclusive range of `random.randint(8300000, 8399998)`. */
  const DrawLow: int := 8300000
  const DrawHigh: int := 8399998

  /** `DeepLAPI.__get_random_number` given the random draw. */
  function RandomId(draw: int): (r: int)
    requires DrawLow <= draw <= DrawHigh
    ensures r % 1000 == 0 && r / 1000 == draw
    ensures 8_300_000_000 <= r <= 8_399_998_000
  {
    draw * 1000
  }

  /** Python `c.lower()` for ASCII letters; every other character is kept. */
  function LowerChar(c: char): (r: char)
    ensures 'A' <= c <= 'Z' ==> r as int == c as int + 32 && 'a' <= r <= 'z'
    ensures !('A' <= c <= 'Z') ==> r == c
  {
    if 'A' <= c <= 'Z' then (c as int + 32) as char else c
  }

  /** Python `s.lower()`, restricted to ASCII. */
  function Lower(s: string): (r: string)
    ensures |r| == |s|
    ensures forall j :: 0 <= j < |s| ==> r[j] == LowerChar(s[j])
  {
    seq(|s|, j requires 0 <= j < |s| => LowerChar(s[j]))
  }

  /** Lower-casing twice is lower-casing once. */
  lemma LowerIdempotent(s: string)
    ensures Lower(Lower(s)) == Lower(s)
  {
  }

  /** The backend the factory builds, with the configuration passed through. */
  datatype Service =
    | DeepL(sourceLang: string, targetLang: string, proxies: Option<Dict>)
    | Google(sourceLang: string, targetLang: string, proxies: Option<Dict>)

  /** The factory's defaults. */
  const DefaultApi: string := "deepl"
  const DefaultSourceLang: string := "auto"
  const DefaultTargetLang: string := "en"

  /** The `ValueError` raised for an unknown backend name. */
  const InvalidApiMessage: string := "Invalid API, please choose either 'deepl' or 'google'"

  /** The `Translator` factory: the name is compared after lower-casing. */
  function MakeTranslator(api: string := DefaultApi, sourceLang: string := DefaultSourceLang,
                          targetLang: string := DefaultTargetLang, proxies: Option<Dict> := None): (r: Result<Service, string>)
    ensures r.Success? <==> Lower(api) == "deepl" || Lower(api) == "google"
    ensures r.Success? ==> r.value.sourceLang == sourceLang && r.value.targetLang == targetLang && r.value.proxies == proxies
    ensures r.Success? ==> (r.value.DeepL? <==> Lower(api) == "deepl")
    ensures r.Failure? ==> r.error == InvalidApiMessage
  {
    var name := Lower(api);
    if name == "deepl" then Success(DeepL(sourceLang, targetLang, proxies))
    else if name == "google" then Success(Google(sourceLang, targetLang, proxies))
    else Failure(InvalidApiMessage)
  }

  /** The factory ignores the case of the name: asking with the
      lower-cased name gives the same answer. */
  lemma MakeTranslatorIgnoresCase(api: string, sourceLang: string, targetLang: string, proxies: Option<Dict>)
    ensures MakeTranslator(api, sourceLang, targetLang, proxies) == MakeTranslator(Lower(api), sourceLang, targetLang, proxies)
  {
    LowerIdempotent(api);
  }

  /** Called with no arguments, the factory builds a DeepL backend that
      detects the source language and translates into English. */
  lemma MakeTranslatorDefaults()
    ensures MakeTranslator() == Success(DeepL("auto", "en", None))
  {
    assert Lower("deepl") == "deepl";
  }

  /** Upper-case spellings of the two names are accepted. */
  lemma MakeTranslatorUpperCase(sourceLang: string, targetLang: string)
    ensures MakeTranslator("DeepL", sourceLang, targetLang, None) == Success(DeepL(sourceLang, targetLang, None))
    ensures MakeTranslator("GOOGLE", sourceLang, targetLang, None) == Success(Google(sourceLang, targetLang, None))
  {
    assert Lower("DeepL") == "deepl";
    assert Lower("GOOGLE") == "google";
  }
}

=== FILE: dicts.dfy ===
/** The placeholder map: a Python `dict[str, str]`, which remembers the
    order in which keys were first inserted and iterates in that order. */
module Dicts {
  import opened Results

  /** The entries of the dictionary in insertion order. */
  type Dict = seq<(string, string)>

  function Keys(d: Dict): (ks: seq<string>)
    decreases |d|
    ensures |ks| == |d|
    ensures forall j :: 0 <= j < |d| ==> ks[j] == d[j].0
  {
    if |d| == 0 then [] else [d[0].0] + Keys(d[1..])
  }

  /** No key appears twice, as in every Python dictionary. */
  predicate UniqueKeys(d: Dict) {
    forall a, b :: 0 <= a < b < |d| ==> d[a].0 != d[b].0
  }

  /** Python `d.get(k)`. */
  function Lookup(d: Dict, k: string): (r: Option<string>)
    decreases |d|
    ensures r.None? <==> k !in Keys(d)
  {
    if |d| == 0 then None
    else if d[0].0 == k then Some(d[0].1)
    else
      assert Keys(d) == [d[0].0] + Keys(d[1..]);
      Lookup(d[1..], k)
  }

  /** Python `d[k] = v`: an existing key keeps its position and takes the new
      value, a new key is appended. */
  function Put(d: Dict, k: string, v: string): (r: Dict)
    decreases |d|
    ensures Keys(r) == if k in Keys(d) then Keys(d) else Keys(d) + [k]
    ensures k !in Keys(d) ==> r == d + [(k, v)]
  {
    if |d| == 0 then [(k, v)]
    else if d[0].0 == k then
      KeysCons((k, v), d[1..]);
      [(k, v)] + d[1..]
    else
      var rest := Put(d[1..], k, v);
      KeysCons(d[0], rest);
      assert k !in Keys(d) ==> d + [(k, v)] == [d[0]] + (d[1..] + [(k, v)]);
      [d[0]] + rest
  }

  lemma KeysCons(x: (string, string), rest: Dict)
    ensures Keys([x] + rest) == [x.0] + Keys(rest)
  {
    assert ([x] + rest)[1..] == rest;
  }

  /** After `d[k] = v`, `k` maps to `v` and every other key to what it
      mapped to before. */
  lemma {:induction false} PutLookup(d: Dict, k: string, v: string, k': string)
    ensures Lookup(Put(d, k, v), k') == if k' == k then Some(v) else Lookup(d, k')
    decreases |d|
  {
    if |d| > 0 && d[0].0 != k {
      var r := Put(d, k, v);
      assert r[1..] == Put(d[1..], k, v);
      PutLookup(d[1..], k, v, k');
    }
  }

  /** With unique keys, looking up the key at position `j` finds the value
      stored there. */
  lemma {:induction false} LookupUnique(d: Dict, j: nat)
    requires UniqueKeys(d) && j < |d|
    ensures Lookup(d, d[j].0) == Some(d[j].1)
    decreases j
  {
    if j > 0 {
      assert d[1..][j - 1] == d[j];
      LookupUnique(d[1..], j - 1);
    }
  }

  /** Writing a key keeps the keys unique. */
  lemma PutUnique(d: Dict, k: string, v: string)
    requires UniqueKeys(d)
    ensures UniqueKeys(Put(d, k, v))
  {
    var r := Put(d, k, v);
    if k !in Keys(d) {
      assert forall a :: 0 <= a < |d| ==> r[a] == d[a];
    } else {
      assert forall a :: 0 <= a < |r| ==> r[a].0 == Keys(r)[a] == Keys(d)[a];
    }
  }

  /** Writing the same key twice keeps only the second value (the last write
      wins) and the key's first position. */
  lemma {:induction false} PutTwice(d: Dict, k: string, a: string, b: string)
    ensures Put(Put(d, k, a), k, b) == Put(d, k, b)
    decreases |d|
  {
    if |d| > 0 && d[0].0 != k {
      PutTwice(d[1..], k, a, b);
    }
  }
}

=== FILE: driver.dfy ===
/** The catalog driver of `POFileTranslator`: `translate` walks the entries
    in order, decides for each whether to send it to the backend, and writes
    the restored translation back into the entry. */
module Driver {
  import opened Results
  import opened MarkupGuard
  import opened RoundTrip
  import opened Api

  /** A catalog entry. `translated` is the answer of polib's
      `entry.translated()`, which this model takes as given; the driver reads
      it before the entry is processed. */
  datatype Entry = Entry(msgid: string, msgstr: string, fuzzy: bool, translated: bool)

  /** A translation backend: the translation of a text, or the error the
      call raised. */
  type Backend = string -> Result<string, ApiError>

  /** What a `POFileTranslator` keeps besides the catalog: the enabled
      patterns and the backend. */
  datatype Translator = Translator(patterns: Option<seq<Matcher>>, api: Backend)

  /** The constructor, without the loading of the catalog. */
  function NewTranslator(exclude: Option<seq<Matcher>>, api: Backend): (t: Translator)
    ensures t.patterns.None? <==> exclude.None? || |exclude.value| == 0
    ensures t.patterns.Some? ==> t.patterns.value == exclude.value
  {
    Translator(EnablePatterns(exclude), api)
  }

  /** The selection rule of `translate`. Without `retranslateFuzzy` an entry
      is sent exactly when it is not fuzzy and not skipped as translated;
      with it, exactly when it is fuzzy or not skipped. */
  function Selected(skipTranslated: bool, retranslateFuzzy: bool, e: Entry): (r: bool)
    ensures !retranslateFuzzy ==> (r <==> !e.fuzzy && !(skipTranslated && e.translated))
    ensures retranslateFuzzy ==> (r <==> e.fuzzy || !skipTranslated || !e.translated)
  {
    if !skipTranslated || !e.translated then retranslateFuzzy || !e.fuzzy
    else retranslateFuzzy && e.fuzzy
  }

  /** `__translate_func`: protect the message, translate the masked text,
      restore the spans into the translation and store it as `msgstr`. A
      failing backend call leaves the entry as it was. */
  function TranslateEntry(t: Translator, e: Entry): (r: Result<Entry, ApiError>)
    ensures var masked := Protect(e.msgid, t.patterns);
      var answer := t.api(masked.text);
      && (r.Failure? <==> answer.Failure?)
      && (r.Failure? ==> r.error == answer.error)
      && (r.Success? ==> r.value == e.(msgstr := Restore(masked.placeholders, answer.value)))
  {
    var masked := Protect(e.msgid, t.patterns);
    match t.api(masked.text)
    case Failure(err) => Failure(err)
    case Success(out) => Success(e.(msgstr := Restore(masked.placeholders, out)))
  }

  /** A backend that answers with its input. */
  function Echo(text: string): Result<string, ApiError> {
    Success(text)
  }

  /** With a backend that answers with its input, an entry whose message
      meets the round-trip conditions gets its own message as translation. */
  lemma EchoTranslatesToMessage(exclude: Option<seq<Matcher>>, e: Entry)
    requires Restorable(e.msgid, exclude)
    ensures TranslateEntry(NewTranslator(exclude, Echo), e) == Success(e.(msgstr := e.msgid))
  {
    RestoreUndoesProtect(e.msgid, exclude);
  }

  /** One iteration of the loop in `translate`: a selected entry is
      translated and then loses its fuzzy flag; any other entry is kept. */
  function Step(t: Translator, skipTranslated: bool, retranslateFuzzy: bool, e: Entry): (r: Result<Entry, ApiError>)
    ensures !Selected(skipTranslated, retranslateFuzzy, e) ==> r == Success(e)
    ensures Selected(skipTranslated, retranslateFuzzy, e) ==>
      && (r.Failure? <==> TranslateEntry(t, e).Failure?)
      && (r.Failure? ==> r.error == TranslateEntry(t, e).error)
      && (r.Success? ==> r.value == TranslateEntry(t, e).value.(fuzzy := false))
    ensures r.Success? ==> r.value.msgid == e.msgid && r.value.translated == e.translated
  {
    if Selected(skipTranslated, retranslateFuzzy, e) then
      match TranslateEntry(t, e)
      case Failure(err) => Failure(err)
      case Success(e') => Success(e'.(fuzzy := false))
    else Success(e)
  }

  /** The catalog after `translate`: finished, or stopped by the error the
      backend raised at entry `at`, with the entries as they were when the
      error propagated. */
  datatype Outcome = Done(entries: seq<Entry>) | Aborted(entries: seq<Entry>, at: nat, error: ApiError)

  /** What one iteration of the loop does to an entry. */
  type StepFn = Entry -> Result<Entry, ApiError>

  /** The loop from entry `i` on, for any per-entry step. Entries before `i`
      are not touched again; each later entry is replaced by its step until
      a step fails, and from the failing entry on nothing changes. */
  function TranslateFrom(step: StepFn, es: seq<Entry>, i: nat): (r: Outcome)
    requires i <= |es|
    decreases |es| - i
    ensures |r.entries| == |es|
    ensures forall j :: 0 <= j < i ==> r.entries[j] == es[j]
    ensures r.Aborted? ==> i <= r.at < |es| && step(es[r.at]) == Failure(r.error)
    ensures r.Aborted? ==> forall j :: r.at <= j < |es| ==> r.entries[j] == es[j]
    ensures forall j :: i <= j < |es| && (r.Done? || j < r.at) ==>
      step(es[j]).Success? && r.entries[j] == step(es[j]).value
  {
    if i == |es| then Done(es)
    else
      match step(es[i])
      case Failure(err) => Aborted(es, i, err)
      case Success(e') =>
        var r := TranslateFrom(step, es[i := e'], i + 1);
        assert r.entries[i] == e';
        assert forall j :: i < j < |es| ==> es[i := e'][j] == es[j];
        r
  }

  /** `translate` over the whole catalog: every entry before the first
      failing one holds the result of its step, and that entry and all
      later ones are untouched. */
  function Translate(t: Translator, es: seq<Entry>, skipTranslated: bool := false, retranslateFuzzy: bool := false): (r: Outcome)
    ensures |r.entries| == |es|
    ensures r.Aborted? ==> r.at < |es| && Step(t, skipTranslated, retranslateFuzzy, es[r.at]) == Failure(r.error)
    ensures r.Aborted? ==> forall j :: r.at <= j < |es| ==> r.entries[j] == es[j]
    ensures forall j :: 0 <= j < |es| && (r.Done? || j < r.at) ==>
      Step(t, skipTranslated, retranslateFuzzy, es[j]).Success?
      && r.entries[j] == Step(t, skipTranslated, retranslateFuzzy, es[j]).value
  {
    TranslateFrom(StepOf(t, skipTranslated, retranslateFuzzy), es, 0)
  }

  /** `Step` with the translator and the two flags fixed. */
  function StepOf(t: Translator, skipTranslated: bool, retranslateFuzzy: bool): StepFn {
    e => Step(t, skipTranslated, retranslateFuzzy, e)
  }

  /** The loop of `translate` as written, updating the catalog in place. It
      computes the same outcome as the fold. */
  method TranslateCatalog(t: Translator, es: seq<Entry>, skipTranslated: bool := false, retranslateFuzzy: bool := false) returns (r: Outcome)
    ensures r == Translate(t, es, skipTranslated, retranslateFuzzy)
  {
    var step := StepOf(t, skipTranslated, retranslateFuzzy);
    var cur := es;
    var i := 0;
    while i < |cur|
      invariant 0 <= i <= |cur| == |es|
      invariant TranslateFrom(step, cur, i) == TranslateFrom(step, es, 0)
    {
      match Step(t, skipTranslated, retranslateFuzzy, cur[i]) {
        case Failure(err) =>
          assert step(cur[i]) == Failure(err);
          return Aborted(cur, i, err);
        case Success(e') =>
          assert step(cur[i]) == Success(e');
          cur := cur[i := e'];
          i := i + 1;
      }
    }
    return Done(cur);
  }

  /** No run changes a message id: an entry is either untouched or holds the
      result of its step. */
  lemma TranslateKeepsMsgids(t: Translator, skipTranslated: bool, retranslateFuzzy: bool, es: seq<Entry>, j: nat)
    requires j < |es|
    ensures Translate(t, es, skipTranslated, retranslateFuzzy).entries[j].msgid == es[j].msgid
  {
    var r := Translate(t, es, skipTranslated, retranslateFuzzy);
    if r.Done? || j < r.at {
      assert Step(t, skipTranslated, retranslateFuzzy, es[j]).Success?;
    }
  }

  /** Without `retranslateFuzzy` the run never sends a fuzzy entry: each one
      comes out exactly as it went in. */
  lemma FuzzyEntriesKept(t: Translator, skipTranslated: bool, es: seq<Entry>, j: nat)
    requires j < |es| && es[j].fuzzy
    ensures Translate(t, es, skipTranslated, false).entries[j] == es[j]
  {
    assert Step(t, skipTranslated, false, es[j]) == Success(es[j]);
  }
}

=== FILE: guard.dfy ===
/** The markup guard of `POFileTranslator`: `protect` masks every span an
    exclude pattern matches with a placeholder before translation, and
    `restore` puts the spans back into the translated text. */
module MarkupGuard {
  import opened Results
  import opened Strings
  import opened Placeholders
  import opened Dicts

  /** A compiled exclude pattern as `re.findall` uses it: the matched
      substrings of a text, in order. The regular-expression engine itself
      is not modelled. */
  type Matcher = string -> seq<string>

  /** The constructor's enable rule: a missing or empty pattern list turns
      the guard off (`None`); otherwise every pattern is kept, in order. */
  function EnablePatterns(exclude: Option<seq<Matcher>>): (r: Option<seq<Matcher>>)
    ensures r.None? <==> exclude.None? || |exclude.value| == 0
    ensures r.Some? ==> r.value == exclude.value
  {
    if exclude.None? || |exclude.value| == 0 then None else exclude
  }

  /** The text holds one of the characters the default patterns start
      from; without one, protection is skipped. */
  predicate HasTrigger(s: string) {
    '`' in s || '*' in s || '_' in s
  }

  /** The trigger test is Python's substring `in` for each of the three
      one-character strings. */
  lemma HasTriggerSubstring(s: string)
    ensures HasTrigger(s) <==> Contains(s, "`") || Contains(s, "*") || Contains(s, "_")
  {
    ContainsChar(s, '`');
    ContainsChar(s, '*');
    ContainsChar(s, '_');
  }

  /** Result of protect: the placeholder map (`None` when protection was
      skipped) and the masked text. */
  datatype Masked = Masked(placeholders: Option<Dict>, text: string)

  /** The working copy and the map while the patterns are applied. */
  datatype WorkState = WorkState(dict: Dict, text: string)

  function Last(ms: seq<string>): string
    requires |ms| > 0
  {
    ms[|ms| - 1]
  }

  /** The inner loop for one pattern: each match, in order, is replaced
      everywhere in the working copy by the pattern's placeholder and then
      recorded under that placeholder. */
  function ApplyMatches(ms: seq<string>, ph: string, st: WorkState): (r: WorkState)
    decreases |ms|
  {
    if |ms| == 0 then st
    else ApplyMatches(ms[1..], ph, WorkState(Put(st.dict, ph, ms[0]), ReplaceAll(st.text, ms[0], ph)))
  }

  /** The inner loop adds at most its own key to the map, at the end, and
      only when it has a match to record. */
  lemma {:induction false} ApplyMatchesKeys(ms: seq<string>, ph: string, st: WorkState)
    ensures var r := ApplyMatches(ms, ph, st);
      Keys(r.dict) == if |ms| == 0 || ph in Keys(st.dict) then Keys(st.dict) else Keys(st.dict) + [ph]
    decreases |ms|
  {
    if |ms| > 0 {
      var st' := WorkState(Put(st.dict, ph, ms[0]), ReplaceAll(st.text, ms[0], ph));
      ApplyMatchesKeys(ms[1..], ph, st');
    }
  }

  /** The state after the first `i` patterns; pattern `i` runs `findall`
      on the working copy left by the patterns before it. */
  function Working(patterns: seq<Matcher>, s: string, i: nat): (r: WorkState)
    requires i <= |patterns|
    decreases i
    ensures |r.dict| <= i
  {
    if i == 0 then WorkState([], s)
    else
      var st := Working(patterns, s, i - 1);
      ApplyMatchesKeys(patterns[i - 1](st.text), Placeholder(i - 1), st);
      ApplyMatches(patterns[i - 1](st.text), Placeholder(i - 1), st)
  }

  /** What pattern `i` finds in the working copy it is applied to. */
  function MatchesAt(patterns: seq<Matcher>, s: string, i: nat): seq<string>
    requires i < |patterns|
  {
    patterns[i](Working(patterns, s, i).text)
  }

  /** `__protect_sphinx_directives`. */
  function Protect(text: string, patterns: Option<seq<Matcher>>): (r: Masked)
    ensures r.placeholders.None? <==> patterns.None? || !HasTrigger(text)
    ensures r.placeholders.None? ==> r.text == text
  {
    if patterns.None? || !HasTrigger(text) then Masked(None, text)
    else
      var st := Working(patterns.value, text, |patterns.value|);
      Masked(Some(st.dict), st.text)
  }

  /** One iteration of the restore loop. The character after the first
      occurrence is read before the `index != -1` test: when the
      placeholder is absent that reads position `len(placeholder) - 1`, and
      an `IndexError` falls through to the plain replacement. */
  function RestoreOne(t: string, ph: string, m: string): (r: string)
    ensures !Contains(t, ph) ==> r == t
    ensures Contains(t, ph) && FusedAfterFirst(t, ph) ==> r == ReplaceAll(t, ph, m + " ")
    ensures Contains(t, ph) && !FusedAfterFirst(t, ph) ==> r == ReplaceAll(t, ph, m)
  {
    var index := Find(t, ph);
    var next := PyIndex(t, index + |ph|);
    assert Contains(t, ph) ==> next == AfterFirst(t, ph) by {
      if Contains(t, ph) {
        FindThenIndex(t, ph);
      }
    }
    if next.Some? && IsAlnum(next.value) && index != -1 then ReplaceAll(t, ph, m + " ")
    else ReplaceAll(t, ph, m)
  }

  /** The restore loop over the map in insertion order. */
  function RestoreAll(d: Dict, t: string): (r: string)
    decreases |d|
    ensures (forall j :: 0 <= j < |d| ==> !Contains(t, d[j].0)) ==> r == t
  {
    if |d| == 0 then t
    else RestoreAll(d[1..], RestoreOne(t, d[0].0, d[0].1))
  }

  /** `__undo_sphinx_directives`. */
  function Restore(placeholders: Option<Dict>, t: string): (r: string)
    ensures placeholders.None? ==> r == t
  {
    match placeholders
    case None => t
    case Some(d) => RestoreAll(d, t)
  }

  /** With the guard off, or no trigger character in the text, the backend
      sees the message itself and its answer is stored as it is. */
  lemma GuardOff(text: string, exclude: Option<seq<Matcher>>, answer: string)
    requires EnablePatterns(exclude).None? || !HasTrigger(text)
    ensures Protect(text, EnablePatterns(exclude)) == Masked(None, text)
    ensures Restore(Protect(text, EnablePatterns(exclude)).placeholders, answer) == answer
  {
  }

  /** The spacing decision is taken on the first occurrence only: when the
      first placeholder is followed by a blank, a second one fused to `a` is
      restored without a space. */
  lemma FirstOccurrenceDecides(k: nat, m: string)
    ensures var ph := Placeholder(k);
      RestoreOne(ph + (" " + (ph + "a")), ph, m) == m + (" " + (m + "a"))
  {
    var ph := Placeholder(k);
    var y := " " + (ph + "a");
    var t := ph + y;
    assert t[..|ph|] == ph;
    assert t[|ph|] == ' ';
    assert AfterFirst(t, ph) == Some(' ');
    ReplaceAllPrefix(y, ph, m);
    assert ph[0] == Prefix[0];
    forall d | 0 <= d < |" "|
      ensures !StartsWith(" "[d..] + (ph + "a"), ph)
    {
      assert (" "[d..] + (ph + "a"))[0] == ' ';
    }
    ReplaceAllSkip(" ", ph + "a", ph, m);
    ReplaceAllPrefix("a", ph, m);
    if Contains("a", ph) {
      ContainsLength("a", ph);
    }
  }

  /** The match lists of all patterns, each taken on the working copy the
      pattern is applied to. */
  ghost function AllMatches(patterns: seq<Matcher>, s: string): (found: seq<seq<string>>)
    ensures |found| == |patterns|
    ensures forall k :: 0 <= k < |patterns| ==> found[k] == MatchesAt(patterns, s, k)
  {
    seq(|patterns|, k requires 0 <= k < |patterns| => MatchesAt(patterns, s, k))
  }

  /** The positions among the first `i` whose match list is non-empty, in
      order. */
  ghost function MatchedPatterns(found: seq<seq<string>>, i: nat): (ks: seq<nat>)
    requires i <= |found|
    decreases i
    ensures |ks| <= i
  {
    if i == 0 then []
    else MatchedPatterns(found, i - 1) + (if |found[i - 1]| > 0 then [i - 1] else [])
  }

  /** Positions listed in strictly increasing order. */
  ghost predicate Increasing(ks: seq<nat>) {
    forall a, b :: 0 <= a < b < |ks| ==> ks[a] < ks[b]
  }

  /** Every listed position is below `i` and its pattern matched; the list
      is increasing. */
  lemma {:induction false} MatchedPatternsSpec(found: seq<seq<string>>, i: nat)
    requires i <= |found|
    ensures var ks := MatchedPatterns(found, i);
      && Increasing(ks)
      && (forall j :: 0 <= j < |ks| ==> ks[j] < i && |found[ks[j]]| > 0)
    decreases i
  {
    if i > 0 {
      MatchedPatternsSpec(found, i - 1);
      var prev := MatchedPatterns(found, i - 1);
      var ks := MatchedPatterns(found, i);
      assert forall j :: 0 <= j < |prev| ==> ks[j] == prev[j];
      if |found[i - 1]| > 0 {
        assert ks[|prev|] == i - 1;
      } else {
        assert ks == prev;
      }
    }
  }

  /** Conversely, every position below `i` whose pattern matched is listed. */
  lemma {:induction false} MatchedPatternsComplete(found: seq<seq<string>>, i: nat, k: nat)
    requires k < i <= |found| && |found[k]| > 0
    ensures k in MatchedPatterns(found, i)
    decreases i
  {
    var prev := MatchedPatterns(found, i - 1);
    var ks := MatchedPatterns(found, i);
    if k < i - 1 {
      MatchedPatternsComplete(found, i - 1, k);
      var j :| 0 <= j < |prev| && prev[j] == k;
      assert ks[j] == k;
    } else {
      assert ks[|prev|] == k;
    }
  }

  /** The value recorded for pattern `k`: its last match. */
  ghost function LastMatch(found: seq<seq<string>>, k: nat): string {
    if k < |found| && |found[k]| > 0 then Last(found[k]) else ""
  }

  /** One entry per listed pattern, in list order, under the key `key`
      gives it and holding that pattern's last match. */
  ghost function Entries(key: nat -> string, found: seq<seq<string>>, ks: seq<nat>): Dict
    decreases |ks|
  {
    if |ks| == 0 then []
    else
      var k := ks[|ks| - 1];
      Entries(key, found, ks[..|ks| - 1]) + [(key(k), LastMatch(found, k))]
  }

  /** Entry `j` belongs to the `j`-th listed pattern. */
  lemma {:induction false} EntriesAt(key: nat -> string, found: seq<seq<string>>, ks: seq<nat>)
    ensures var d := Entries(key, found, ks);
      |d| == |ks| && forall j :: 0 <= j < |d| ==> d[j] == (key(ks[j]), LastMatch(found, ks[j]))
    decreases |ks|
  {
    if |ks| > 0 {
      var ks' := ks[..|ks| - 1];
      EntriesAt(key, found, ks');
      var d', d := Entries(key, found, ks'), Entries(key, found, ks);
      assert d == d' + [(key(ks[|ks| - 1]), LastMatch(found, ks[|ks| - 1]))];
      forall j | 0 <= j < |d|
        ensures d[j] == (key(ks[j]), LastMatch(found, ks[j]))
      {
        if j < |d'| {
          assert d[j] == d'[j];
          assert ks'[j] == ks[j];
        }
      }
    }
  }

  /** The map described pattern by pattern: one entry per listed pattern, in
      list order, keyed by its placeholder and holding its last match. */
  ghost function ExpectedDict(found: seq<seq<string>>, ks: seq<nat>): Dict {
    Entries(Placeholder, found, ks)
  }

  /** Entry `j` of the expected map belongs to the `j`-th listed pattern. */
  lemma ExpectedDictAt(found: seq<seq<string>>, ks: seq<nat>)
    ensures var d := ExpectedDict(found, ks);
      |d| == |ks| && forall j :: 0 <= j < |d| ==> d[j] == (Placeholder(ks[j]), LastMatch(found, ks[j]))
  {
    EntriesAt(Placeholder, found, ks);
  }

  /** `d` holds, in order, the placeholder of each listed position. */
  ghost predicate KeyedBy(d: Dict, ks: seq<nat>) {
    |d| == |ks| && forall j :: 0 <= j < |d| ==> d[j].0 == Placeholder(ks[j])
  }

  /** The placeholder of an unlisted position is not a key. */
  lemma KeyedFresh(d: Dict, ks: seq<nat>, k: nat)
    requires KeyedBy(d, ks) && forall j :: 0 <= j < |ks| ==> ks[j] != k
    ensures Placeholder(k) !in Keys(d)
  {
    forall j | 0 <= j < |d|
      ensures Keys(d)[j] != Placeholder(k)
    {
      PlaceholderInjective(ks[j], k);
    }
  }

  /** Placeholders of increasing positions are distinct keys. */
  lemma KeyedUnique(d: Dict, ks: seq<nat>)
    requires KeyedBy(d, ks) && Increasing(ks)
    ensures UniqueKeys(d)
  {
    forall a, b | 0 <= a < b < |d|
      ensures d[a].0 != d[b].0
    {
      PlaceholderInjective(ks[a], ks[b]);
    }
  }

  /** Placeholders of distinct positions below 100 have 7 characters and do
      not occur inside each other. */
  lemma KeyedShort(d: Dict, ks: seq<nat>)
    requires KeyedBy(d, ks) && Increasing(ks)
    requires forall j :: 0 <= j < |ks| ==> ks[j] < 100
    ensures forall a, b :: 0 <= a < |d| && 0 <= b < |d| && a != b ==> |d[a].0| == 7 && !Contains(d[a].0, d[b].0)
  {
    forall a, b | 0 <= a < |d| && 0 <= b < |d| && a != b
      ensures |d[a].0| == 7 && !Contains(d[a].0, d[b].0)
    {
      assert ks[a] != ks[b] by {
        if a < b {
          assert ks[a] < ks[b];
        } else {
          assert ks[b] < ks[a];
        }
      }
      ShortPlaceholdersDistinct(ks[a], ks[b]);
    }
  }

  /** Recording the matches one after another leaves the last one. */
  lemma PutLast(d: Dict, ph: string, ms: seq<string>)
    requires |ms| > 0
    ensures (if |ms| == 1 then Put(d, ph, ms[0]) else Put(Put(d, ph, ms[0]), ph, Last(ms[1..])))
      == Put(d, ph, Last(ms))
  {
    if |ms| > 1 {
      assert Last(ms[1..]) == Last(ms);
      PutTwice(d, ph, ms[0], Last(ms));
    }
  }

  /** Within one pattern, only the last match survives in the map. */
  lemma {:induction false} ApplyMatchesDict(ms: seq<string>, ph: string, st: WorkState)
    ensures ApplyMatches(ms, ph, st).dict == if |ms| == 0 then st.dict else Put(st.dict, ph, Last(ms))
    decreases |ms|
  {
    if |ms| > 0 {
      var st' := WorkState(Put(st.dict, ph, ms[0]), ReplaceAll(st.text, ms[0], ph));
      ApplyMatchesDict(ms[1..], ph, st');
      PutLast(st.dict, ph, ms);
    }
  }

  /** One pattern's step on a map built from the patterns that matched: a
      pattern that matched, with a key not yet in the map, appends its entry;
      one that found nothing leaves the map alone. */
  lemma EntriesStep(key: nat -> string, found: seq<seq<string>>, i: nat, d: Dict)
    requires 0 < i <= |found|
    requires d == Entries(key, found, MatchedPatterns(found, i - 1))
    requires key(i - 1) !in Keys(d)
    ensures (if |found[i - 1]| == 0 then d else Put(d, key(i - 1), Last(found[i - 1])))
      == Entries(key, found, MatchedPatterns(found, i))
  {
    var ks := MatchedPatterns(found, i - 1);
    if |found[i - 1]| > 0 {
      assert Put(d, key(i - 1), Last(found[i - 1])) == d + [(key(i - 1), Last(found[i - 1]))];
      assert MatchedPatterns(found, i) == ks + [i - 1];
      assert (ks + [i - 1])[..|ks|] == ks;
      assert LastMatch(found, i - 1) == Last(found[i - 1]);
    } else {
      assert MatchedPatterns(found, i) == ks;
    }
  }

  /** The placeholder of the pattern about to be applied is not a key yet. */
  lemma ExpectedDictFresh(found: seq<seq<string>>, i: nat)
    requires i <= |found|
    ensures Placeholder(i) !in Keys(ExpectedDict(found, MatchedPatterns(found, i)))
  {
    var ks := MatchedPatterns(found, i);
    var d := ExpectedDict(found, ks);
    MatchedPatternsSpec(found, i);
    ExpectedDictAt(found, ks);
    assert KeyedBy(d, ks);
    KeyedFresh(d, ks, i);
  }

  /** The same step for the expected map: the placeholder of the pattern
      being applied is never in the map yet. */
  lemma ExpectedDictStep(found: seq<seq<string>>, i: nat, d: Dict)
    requires 0 < i <= |found|
    requires d == ExpectedDict(found, MatchedPatterns(found, i - 1))
    ensures (if |found[i - 1]| == 0 then d else Put(d, Placeholder(i - 1), Last(found[i - 1])))
      == ExpectedDict(found, MatchedPatterns(found, i))
  {
    ExpectedDictFresh(found, i - 1);
    EntriesStep(Placeholder, found, i, d);
  }

  /** The map after `i` patterns is the expected map of the patterns that
      matched so far: a pattern's placeholder is new when it is written,
      so it is appended. */
  lemma {:induction false} WorkingDict(patterns: seq<Matcher>, s: string, i: nat)
    requires i <= |patterns|
    ensures Working(patterns, s, i).dict == ExpectedDict(AllMatches(patterns, s), MatchedPatterns(AllMatches(patterns, s), i))
    decreases i
  {
    var found := AllMatches(patterns, s);
    if i > 0 {
      var st := Working(patterns, s, i - 1);
      WorkingDict(patterns, s, i - 1);
      assert |found| == |patterns|;
      var ms := patterns[i - 1](st.text);
      assert found[i - 1] == MatchesAt(patterns, s, i - 1) == ms;
      ApplyMatchesDict(ms, Placeholder(i - 1), st);
      ExpectedDictStep(found, i, st.dict);
    }
  }

  /** The map protect returns when it does not take the fast path. */
  function ProtectedDict(text: string, patterns: seq<Matcher>): Dict
    requires HasTrigger(text)
  {
    Protect(text, Some(patterns)).placeholders.value
  }

  /** The shape of the placeholder map: one entry per pattern that matched,
      in pattern order, keyed by `XASDF` and the zero-padded pattern index and
      holding that pattern's last match; so there are no more entries than
      patterns. */
  lemma ProtectPlaceholders(text: string, patterns: seq<Matcher>)
    requires HasTrigger(text)
    ensures var d, found := ProtectedDict(text, patterns), AllMatches(patterns, text);
      var ks := MatchedPatterns(found, |patterns|);
      && |d| == |ks| <= |patterns|
      && Increasing(ks)
      && (forall j :: 0 <= j < |ks| ==> ks[j] < |patterns| && |found[ks[j]]| > 0)
      && forall j :: 0 <= j < |d| ==> d[j] == (Placeholder(ks[j]), Last(found[ks[j]]))
  {
    var found := AllMatches(patterns, text);
    WorkingDict(patterns, text, |patterns|);
    MatchedPatternsSpec(found, |patterns|);
    ExpectedDictAt(found, MatchedPatterns(found, |patterns|));
  }

  /** Every pattern has at most one key. */
  lemma ProtectKeysUnique(text: string, patterns: seq<Matcher>)
    requires HasTrigger(text)
    ensures UniqueKeys(ProtectedDict(text, patterns))
  {
    var d, found := ProtectedDict(text, patterns), AllMatches(patterns, text);
    var ks := MatchedPatterns(found, |patterns|);
    ProtectPlaceholders(text, patterns);
    MatchedPatternsSpec(found, |patterns|);
    assert KeyedBy(d, ks);
    KeyedUnique(d, ks);
  }

  /** The placeholder of pattern `k` maps to the last match of pattern `k`,
      and is absent when the pattern found nothing. */
  lemma ProtectLookup(text: string, patterns: seq<Matcher>, k: nat)
    requires HasTrigger(text) && k < |patterns|
    ensures Lookup(ProtectedDict(text, patterns), Placeholder(k))
      == if |MatchesAt(patterns, text, k)| > 0 then Some(Last(MatchesAt(patterns, text, k))) else None
  {
    var d, found := ProtectedDict(text, patterns), AllMatches(patterns, text);
    var ks := MatchedPatterns(found, |patterns|);
    ProtectPlaceholders(text, patterns);
    MatchedPatternsSpec(found, |patterns|);
    assert KeyedBy(d, ks);
    if |found[k]| > 0 {
      ProtectKeysUnique(text, patterns);
      MatchedPatternsComplete(found, |patterns|, k);
      var j :| 0 <= j < |ks| && ks[j] == k;
      LookupUnique(d, j);
    } else {
      KeyedFresh(d, ks, k);
    }
  }

  /** With at most 100 patterns every key has 7 characters and no key occurs
      inside another. */
  lemma ProtectShortKeys(text: string, patterns: seq<Matcher>)
    requires HasTrigger(text) && |patterns| <= 100
    ensures var d := ProtectedDict(text, patterns);
      forall a, b :: 0 <= a < |d| && 0 <= b < |d| && a != b ==> |d[a].0| == 7 && !Contains(d[a].0, d[b].0)
  {
    var d, found := ProtectedDict(text, patterns), AllMatches(patterns, text);
    var ks := MatchedPatterns(found, |patterns|);
    ProtectPlaceholders(text, patterns);
    MatchedPatternsSpec(found, |patterns|);
    assert KeyedBy(d, ks);
    KeyedShort(d, ks);
  }
}

=== FILE: placeholders.dfy ===
/** The placeholder tokens of the markup guard: the fixed prefix `XASDF`
    followed by the pattern index written in decimal and zero-padded to two
    digits (Python `f"XASDF{str(index).zfill(2)}"`). */
module Placeholders {
  import opened Strings

  const Prefix: string := "XASDF"

  /** Every character a placeholder can contain. */
  predicate PlaceholderChar(c: char) {
    c == 'X' || c == 'A' || c == 'S' || c == 'D' || c == 'F' || ('0' <= c <= '9')
  }

  function DigitChar(d: nat): (c: char)
    requires d < 10
    ensures '0' <= c <= '9'
  {
    (48 + d) as char
  }

  /** Python `str(n)` for a non-negative integer. */
  function Decimal(n: nat): (r: string)
    ensures |r| >= 1
    ensures forall j :: 0 <= j < |r| ==> '0' <= r[j] <= '9'
    ensures n >= 1 ==> r[0] != '0'
    ensures n < 10 <==> |r| == 1
  {
    if n < 10 then [DigitChar(n)] else Decimal(n / 10) + [DigitChar(n % 10)]
  }

  /** Python `int(s)` for a string of decimal digits. */
  function ParseDecimal(s: string): nat
    requires forall j :: 0 <= j < |s| ==> '0' <= s[j] <= '9'
    decreases |s|
  {
    if |s| == 0 then 0
    else ParseDecimal(s[..|s| - 1]) * 10 + ((s[|s| - 1] as int) - 48)
  }

  /** Reading a number back from its decimal text gives the number. */
  lemma {:induction false} ParseDecimalInverse(n: nat)
    ensures ParseDecimal(Decimal(n)) == n
    decreases n
  {
    var r := Decimal(n);
    if n >= 10 {
      assert r[..|r| - 1] == Decimal(n / 10);
      ParseDecimalInverse(n / 10);
    }
  }

  /** Python `s.zfill(width)` for an unsigned digit string. */
  function ZFill(s: string, width: nat): (r: string)
    ensures |r| == if |s| >= width then |s| else width
    ensures r[|r| - |s|..] == s
    ensures forall j :: 0 <= j < |r| - |s| ==> r[j] == '0'
  {
    if |s| >= width then s else seq(width - |s|, _ => '0') + s
  }

  /** The placeholder of the pattern at position `i`. */
  function Placeholder(i: nat): (r: string)
    ensures |r| >= 7 && StartsWith(r, Prefix)
    ensures forall j :: 1 <= j < |r| ==> r[j] != 'X'
    ensures forall j :: 0 <= j < |r| ==> PlaceholderChar(r[j])
    ensures i < 100 ==> |r| == 7 && r[5] == DigitChar(i / 10) && r[6] == DigitChar(i % 10)
  {
    var digits := ZFill(Decimal(i), 2);
    assert i >= 10 ==> Decimal(i) == Decimal(i / 10) + [DigitChar(i % 10)];
    Prefix + digits
  }

  /** The zero-padded index is a digit string that reads back as the index. */
  lemma PaddedIndexInverse(i: nat)
    ensures var z := ZFill(Decimal(i), 2);
      (forall j :: 0 <= j < |z| ==> '0' <= z[j] <= '9') && ParseDecimal(z) == i
  {
    var z := ZFill(Decimal(i), 2);
    if i < 10 {
      var d := Decimal(i);
      assert d == [DigitChar(i)];
      assert z == seq(1, _ => '0') + d;
      assert z == ['0', DigitChar(i)];
      assert z[..1] == ['0'];
      assert ParseDecimal(['0']) == 0;
      assert ParseDecimal(z) == ParseDecimal(z[..1]) * 10 + ((z[1] as int) - 48);
    } else {
      ParseDecimalInverse(i);
    }
  }

  /** Different patterns get different placeholders, whatever their number. */
  lemma PlaceholderInjective(i: nat, j: nat)
    ensures Placeholder(i) == Placeholder(j) ==> i == j
  {
    var a, b := ZFill(Decimal(i), 2), ZFill(Decimal(j), 2);
    assert Placeholder(i) == Prefix + a && Placeholder(j) == Prefix + b;
    assert (Prefix + a)[5..] == a && (Prefix + b)[5..] == b;
    PaddedIndexInverse(i);
    PaddedIndexInverse(j);
  }

  /** With fewer than 100 patterns no placeholder occurs inside another one. */
  lemma ShortPlaceholdersDistinct(i: nat, j: nat)
    requires i < 100 && j < 100 && i != j
    ensures !Contains(Placeholder(i), Placeholder(j))
  {
    if Contains(Placeholder(i), Placeholder(j)) {
      ContainsSameLength(Placeholder(i), Placeholder(j));
      PlaceholderInjective(i, j);
    }
  }

  /** From pattern index 100 on, an earlier placeholder is a prefix of a
      later one: `XASDF10` occurs in `XASDF100`. */
  lemma WidePlaceholderCollision()
    ensures Placeholder(10) != Placeholder(100)
    ensures StartsWith(Placeholder(100), Placeholder(10))
  {
    assert DigitChar(1) == '1' && DigitChar(0) == '0';
    assert Decimal(1) == "1";
    assert Decimal(10) == "10";
    assert Decimal(100) == "100";
    assert ZFill("10", 2) == "10";
    assert ZFill("100", 2) == "100";
    assert Placeholder(100) == "XASDF100";
    assert Placeholder(10) == "XASDF10";
    assert "XASDF100"[..7] == "XASDF10";
  }

  /** The decimal text of a number from 100 on begins with the two digits
      of a number between 10 and 99. */
  lemma {:induction false} WideDecimal(k: nat) returns (m: nat)
    requires k >= 100
    ensures 10 <= m < 100 && |Decimal(k)| >= 3 && Decimal(k)[..2] == Decimal(m)
    decreases k
  {
    assert Decimal(k) == Decimal(k / 10) + [DigitChar(k % 10)];
    if k < 1000 {
      m := k / 10;
      assert Decimal(m) == Decimal(m / 10) + [DigitChar(m % 10)];
    } else {
      m := WideDecimal(k / 10);
    }
  }

  /** Every placeholder from index 100 on begins with the placeholder
      of a pattern between 10 and 99, directly followed by a digit. */
  lemma WidePlaceholderPrefix(k: nat) returns (m: nat)
    requires k >= 100
    ensures 10 <= m < 100 && |Placeholder(k)| > 7
    ensures Placeholder(k)[..7] == Placeholder(m) && '0' <= Placeholder(k)[7] <= '9'
  {
    m := WideDecimal(k);
    var dk, dm := Decimal(k), Decimal(m);
    assert |dm| == 2;
    assert ZFill(dk, 2) == dk && ZFill(dm, 2) == dm;
    assert Placeholder(k) == Prefix + dk && Placeholder(m) == Prefix + dm;
    assert (Prefix + dk)[..7] == Prefix + dk[..2];
    assert (Prefix + dk)[7] == dk[2];
  }

  /** A text that begins with a placeholder begins with the prefix. */
  lemma PlaceholderHasPrefix(x: string, k: nat)
    requires StartsWith(x, Placeholder(k))
    ensures StartsWith(x, Prefix) && Contains(x, Prefix)
  {
    assert x[..5] == x[..|Placeholder(k)|][..5];
  }

  /** No occurrence of `q` starts after the head of `x` when the head
      character of `q` occurs only at the head of `x`. */
  lemma NoHeadNoStart(x: string, y: string, q: string)
    requires |x| > 0 && |q| > 0 && forall j :: 1 <= j < |x| ==> x[j] != q[0]
    ensures NoStartWithin(x[1..], y, q)
  {
    forall d | 0 <= d < |x| - 1
      ensures !StartsWith(x[1..][d..] + y, q)
    {
      assert (x[1..][d..] + y)[0] == x[d + 1];
    }
  }

  /** The characters after the head `X` of a placeholder contain no `X`, so
      no occurrence of a placeholder starts inside another placeholder. */
  lemma PlaceholderTailNoStart(i: nat, k: nat, y: string)
    ensures NoStartWithin(Placeholder(i)[1..], y, Placeholder(k))
  {
    var q := Placeholder(k);
    assert q[0] == q[..5][0] == 'X';
    NoHeadNoStart(Placeholder(i), y, q);
  }

  /** No occurrence of another short placeholder starts anywhere inside a
      placeholder. */
  lemma PlaceholderNoStart(j: nat, k: nat, y: string)
    requires j < 100 && k < 100 && j != k
    ensures NoStartWithin(Placeholder(j), y, Placeholder(k))
  {
    var p, q := Placeholder(j), Placeholder(k);
    PlaceholderTailNoStart(j, k, y);
    forall d | 0 <= d < |p|
      ensures !StartsWith(p[d..] + y, q)
    {
      if d == 0 {
        assert p[0..] == p;
        if StartsWith(p + y, q) {
          assert (p + y)[..|q|] == p;
          PlaceholderInjective(j, k);
        }
      } else {
        assert p[d..] == p[1..][d - 1..];
      }
    }
  }
}

=== FILE: results.dfy ===
/** Failure-carrying result types shared by the other modules. */
module Results {

  /** A value that may be absent (Python `None`). */
  datatype Option<+T> = None | Some(value: T)

  /** Either a value or the error the Python code would raise instead. */
  datatype Result<+T, +E> = Success(value: T) | Failure(error: E)
}

=== FILE: roundtrip.dfy ===
/** When does `restore(protect(s))` give back `s`?

    The proof views every working copy of the text as a layout: a sequence
    of pieces, each a character of the source text or the placeholder of
    some pattern. A layout renders to the working copy (placeholders as
    their tokens) and expands to the source text (placeholders as the span
    they stand for). Protect refines the layout pattern by pattern; restore
    dissolves the placeholders one key at a time, and once none is left the
    rendering is the source text. */
module RoundTrip {
  import opened Results
  import opened Strings
  import opened Placeholders
  import opened Dicts
  import opened MarkupGuard

  /** A character of the source text, or the placeholder of pattern `k`. */
  datatype Piece = Lit(c: char) | Hole(k: nat)

  type Layout = seq<Piece>

  function RenderPiece(p: Piece): (r: string)
    ensures |r| > 0
  {
    match p
    case Lit(c) => [c]
    case Hole(k) => Placeholder(k)
  }

  /** The working copy a layout stands for. */
  function Render(L: Layout): string
    decreases |L|
  {
    if |L| == 0 then [] else RenderPiece(L[0]) + Render(L[1..])
  }

  function ExpandPiece(p: Piece, spans: seq<string>): string {
    match p
    case Lit(c) => [c]
    case Hole(k) => if k < |spans| then spans[k] else []
  }

  /** The text a layout stands for once every placeholder of pattern `k` is
      read as `spans[k]`. */
  function Expand(L: Layout, spans: seq<string>): string
    decreases |L|
  {
    if |L| == 0 then [] else ExpandPiece(L[0], spans) + Expand(L[1..], spans)
  }

  /** The layout of a text no pattern has touched. */
  function Lits(s: string): (L: Layout)
    decreases |s|
    ensures |L| == |s|
    ensures forall j :: 0 <= j < |s| ==> L[j] == Lit(s[j])
  {
    if |s| == 0 then [] else [Lit(s[0])] + Lits(s[1..])
  }

  /** The layout begins with the characters of `w`, none of them masked. */
  predicate LitRunAt(L: Layout, w: string) {
    |w| <= |L| && forall j :: 0 <= j < |w| ==> L[j] == Lit(w[j])
  }

  /** Every placeholder in the layout belongs to one of the patterns `ks`. */
  predicate HolesAmong(L: Layout, ks: seq<nat>) {
    forall x :: x in L && x.Hole? ==> x.k in ks
  }

  /** Every placeholder in the layout belongs to a pattern below `n`. */
  predicate HolesBelow(L: Layout, n: nat) {
    forall x :: x in L && x.Hole? ==> x.k < n
  }

  lemma {:induction false} RenderLits(s: string, L: Layout)
    ensures Render(Lits(s) + L) == s + Render(L)
    decreases |s|
  {
    if |s| == 0 {
      assert Lits(s) + L == L;
    } else {
      var X, T := Lits(s) + L, Lits(s[1..]) + L;
      assert X[0] == Lit(s[0]) && X[1..] == T;
      assert RenderPiece(X[0]) == [s[0]];
      assert Render(X) == [s[0]] + Render(T);
      RenderLits(s[1..], L);
      ConsAppend(s, Render(L));
    }
  }

  lemma {:induction false} ExpandLits(s: string, L: Layout, spans: seq<string>)
    ensures Expand(Lits(s) + L, spans) == s + Expand(L, spans)
    decreases |s|
  {
    if |s| == 0 {
      assert Lits(s) + L == L;
    } else {
      var X, T := Lits(s) + L, Lits(s[1..]) + L;
      assert X[0] == Lit(s[0]) && X[1..] == T;
      assert Expand(X, spans) == [s[0]] + Expand(T, spans);
      ExpandLits(s[1..], L, spans);
      ConsAppend(s, Expand(L, spans));
    }
  }

  lemma RenderRun(L: Layout, w: string, spans: seq<string>)
    requires LitRunAt(L, w)
    ensures Render(L) == w + Render(L[|w|..])
    ensures Expand(L, spans) == w + Expand(L[|w|..], spans)
  {
    assert L == Lits(w) + L[|w|..];
    RenderLits(w, L[|w|..]);
    ExpandLits(w, L[|w|..], spans);
  }

  /** A span the guard can mask and unmask safely: it is non-empty, its first
      and last characters cannot occur in a placeholder, and it does not
      contain the placeholder prefix. Such a span can neither begin inside a
      placeholder nor end inside one nor swallow one. */
  predicate Guarded(m: string) {
    |m| > 0 && !PlaceholderChar(m[0]) && !PlaceholderChar(m[|m| - 1]) && !Contains(m, Prefix)
  }

  /** A non-empty prefix of a text that begins with a string of placeholder
      characters starting with `XASDF` either ends on a placeholder
      character or contains `XASDF`. */
  lemma PrefixedHeadUnguarded(p: string, t: string, w: string)
    requires |p| >= 5 && StartsWith(p, Prefix)
    requires forall j :: 0 <= j < |p| ==> PlaceholderChar(p[j])
    requires |w| > 0 && StartsWith(p + t, w)
    ensures PlaceholderChar(w[|w| - 1]) || Contains(w, Prefix)
  {
    var r := p + t;
    assert r[..|w|] == w;
    if |w| < 5 {
      assert w[|w| - 1] == r[|w| - 1] == p[|w| - 1];
    } else {
      assert w[..5] == r[..|w|][..5] == r[..5];
      assert r[..5] == p[..5] == Prefix;
      assert w[0..] == w;
      ContainsAt(w, Prefix, 0);
    }
  }

  /** A non-empty prefix of a text that begins with a placeholder either
      ends on a placeholder character or contains the placeholder prefix. */
  lemma HoleHeadUnguarded(L: Layout, w: string)
    requires |L| > 0 && L[0].Hole? && |w| > 0 && StartsWith(Render(L), w)
    ensures PlaceholderChar(w[|w| - 1]) || Contains(w, Prefix)
  {
    RenderHead(L);
    PrefixedHeadUnguarded(Placeholder(L[0].k), Render(L[1..]), w);
  }

  /** An occurrence of such a span that starts at a source character covers
      source characters only. */
  lemma {:induction false} LitSpan(L: Layout, w: string)
    requires |L| > 0 && L[0].Lit? && |w| > 0
    requires StartsWith(Render(L), w)
    requires !PlaceholderChar(w[|w| - 1]) && !Contains(w, Prefix)
    ensures LitRunAt(L, w)
    decreases |w|
  {
    var L' := L[1..];
    RenderHead(L);
    assert Render(L) == [L[0].c] + Render(L');
    StartsWithTail(L[0].c, Render(L'), w);
    if |w| > 1 {
      var w' := w[1..];
      assert w'[|w'| - 1] == w[|w| - 1];
      assert |L'| > 0;
      if L'[0].Hole? {
        HoleHeadUnguarded(L', w');
        assert false;
      }
      LitSpan(L', w');
      LitRunCons(L, w);
    }
  }

  /** A run spelling `w` starts with a piece for `w[0]` followed by a run
      spelling the rest of `w`. */
  lemma LitRunCons(L: Layout, w: string)
    requires |L| > 0 && |w| > 0 && L[0] == Lit(w[0]) && LitRunAt(L[1..], w[1..])
    ensures LitRunAt(L, w)
  {
    forall j | 0 <= j < |w|
      ensures L[j] == Lit(w[j])
    {
      if j > 0 {
        assert L[1..][j - 1] == L[j] && w[1..][j - 1] == w[j];
      }
    }
  }

  /** The effect of one `str.replace(match, placeholder)` on the layout: the
      left-to-right scan turns each unmasked run spelling `m` into the
      placeholder of pattern `i`. */
  function PieceReplace(L: Layout, m: string, i: nat): Layout
    requires |m| > 0
    decreases |L|
  {
    if |L| == 0 then []
    else if LitRunAt(L, m) then [Hole(i)] + PieceReplace(L[|m|..], m, i)
    else [L[0]] + PieceReplace(L[1..], m, i)
  }

  /** A guarded span that is not an unmasked run at the head of the layout
      does not start anywhere inside the head piece. */
  lemma NoMatchInHead(L: Layout, m: string)
    requires Guarded(m) && |L| > 0 && !LitRunAt(L, m)
    ensures Render(L) == RenderPiece(L[0]) + Render(L[1..])
    ensures NoStartWithin(RenderPiece(L[0]), Render(L[1..]), m)
  {
    var head, tail := RenderPiece(L[0]), Render(L[1..]);
    forall d | 0 <= d < |head|
      ensures !StartsWith(head[d..] + tail, m)
    {
      if L[0].Hole? {
        assert (head[d..] + tail)[0] == head[d];
      } else {
        assert head[d..] + tail == Render(L);
        if StartsWith(Render(L), m) {
          LitSpan(L, m);
        }
      }
    }
  }

  /** For a guarded span, `str.replace` on the working copy is exactly the
      layout replacement: no occurrence straddles a placeholder. */
  lemma {:induction false} ScanMatch(L: Layout, m: string, i: nat)
    requires Guarded(m)
    ensures ReplaceAll(Render(L), m, Placeholder(i)) == Render(PieceReplace(L, m, i))
    decreases |L|
  {
    if |L| == 0 {
    } else if LitRunAt(L, m) {
      var rest := PieceReplace(L[|m|..], m, i);
      RenderRun(L, m, []);
      ReplaceAllPrefix(Render(L[|m|..]), m, Placeholder(i));
      ScanMatch(L[|m|..], m, i);
      assert ([Hole(i)] + rest)[1..] == rest;
    } else {
      NoMatchInHead(L, m);
      ReplaceAllSkip(RenderPiece(L[0]), Render(L[1..]), m, Placeholder(i));
      ScanMatch(L[1..], m, i);
      var rest := PieceReplace(L[1..], m, i);
      assert ([L[0]] + rest)[1..] == rest;
    }
  }

  /** The replacement puts a placeholder wherever the scan meets the span. */
  lemma ReplacedHead(X: Layout, m: string, i: nat)
    requires |m| > 0 && |X| > 0
    ensures LitRunAt(X, m) ==> PieceReplace(X, m, i)[0] == Hole(i)
    ensures !LitRunAt(X, m) ==> PieceReplace(X, m, i) == [X[0]] + PieceReplace(X[1..], m, i)
  {
  }

  /** A run of unmasked characters after the replacement was already there
      before it. */
  lemma {:induction false} ReplacedRun(X: Layout, m: string, i: nat, w: string)
    requires |m| > 0 && LitRunAt(PieceReplace(X, m, i), w)
    ensures LitRunAt(X, w)
    decreases |X|
  {
    if |w| > 0 {
      var Y := PieceReplace(X, m, i);
      assert |X| > 0 && Y[0] == Lit(w[0]);
      ReplacedHead(X, m, i);
      {
        var rest := PieceReplace(X[1..], m, i);
        assert Y == [X[0]] + rest;
        assert LitRunAt(rest, w[1..]) by {
          forall j | 0 <= j < |w[1..]|
            ensures rest[j] == Lit(w[1..][j])
          {
            assert Y[j + 1] == Lit(w[j + 1]);
          }
        }
        ReplacedRun(X[1..], m, i, w[1..]);
        forall j | 0 <= j < |w|
          ensures X[j] == Lit(w[j])
        {
          if j > 0 {
            assert X[1..][j - 1] == Lit(w[1..][j - 1]);
          }
        }
      }
    }
  }

  /** A run spelling `m` right after an unmasked head piece was a run in
      the layout before the replacement. */
  lemma ReplacedTailRun(L: Layout, m: string, i: nat)
    requires |L| > 0 && |m| > 0
    ensures LitRunAt([L[0]] + PieceReplace(L[1..], m, i), m) ==> LitRunAt(L, m)
  {
    var rest := PieceReplace(L[1..], m, i);
    var Y := [L[0]] + rest;
    assert Y[1..] == rest;
    if LitRunAt(Y, m) {
      assert LitRunAt(rest, m[1..]) by {
        forall j | 0 <= j < |m[1..]|
          ensures rest[j] == Lit(m[1..][j])
        {
          assert Y[j + 1] == Lit(m[j + 1]);
        }
      }
      ReplacedRun(L[1..], m, i, m[1..]);
      forall j | 0 <= j < |m|
        ensures L[j] == Lit(m[j])
      {
        if j > 0 {
          assert L[1..][j - 1] == Lit(m[1..][j - 1]);
        } else {
          assert Y[0] == L[0];
        }
      }
    }
  }

  /** Replacing the same span a second time changes nothing: the scan left
      no unmasked run spelling it. */
  lemma {:induction false} PieceReplaceTwice(L: Layout, m: string, i: nat)
    requires |m| > 0
    ensures PieceReplace(PieceReplace(L, m, i), m, i) == PieceReplace(L, m, i)
    decreases |L|
  {
    if |L| > 0 {
      if LitRunAt(L, m) {
        var rest := PieceReplace(L[|m|..], m, i);
        var Y := [Hole(i)] + rest;
        assert Y[0] != Lit(m[0]);
        assert Y[1..] == rest;
        PieceReplaceTwice(L[|m|..], m, i);
      } else {
        var rest := PieceReplace(L[1..], m, i);
        var Y := [L[0]] + rest;
        assert Y[1..] == rest;
        ReplacedTailRun(L, m, i);
        PieceReplaceTwice(L[1..], m, i);
      }
    }
  }

  /** Masking a span never changes the text the layout stands for. */
  lemma {:induction false} ExpandPieceReplace(L: Layout, m: string, i: nat, spans: seq<string>)
    requires |m| > 0 && i < |spans| && spans[i] == m
    ensures Expand(PieceReplace(L, m, i), spans) == Expand(L, spans)
    decreases |L|
  {
    if |L| > 0 {
      if LitRunAt(L, m) {
        var rest := PieceReplace(L[|m|..], m, i);
        RenderRun(L, m, spans);
        ExpandPieceReplace(L[|m|..], m, i, spans);
        assert ([Hole(i)] + rest)[1..] == rest;
      } else {
        var rest := PieceReplace(L[1..], m, i);
        ExpandPieceReplace(L[1..], m, i, spans);
        assert ([L[0]] + rest)[1..] == rest;
      }
    }
  }

  /** The replacement only adds placeholders of pattern `i`. */
  lemma {:induction false} PieceReplaceHoles(L: Layout, m: string, i: nat)
    requires |m| > 0
    ensures forall x :: x in PieceReplace(L, m, i) ==> x in L || x == Hole(i)
    decreases |L|
  {
    if |L| > 0 {
      if LitRunAt(L, m) {
        PieceReplaceHoles(L[|m|..], m, i);
        assert forall x :: x in L[|m|..] ==> x in L;
      } else {
        PieceReplaceHoles(L[1..], m, i);
        assert forall x :: x in L[1..] ==> x in L;
      }
    }
  }

  lemma RenderHead(L: Layout)
    requires |L| > 0
    ensures Render(L) == RenderPiece(L[0]) + Render(L[1..])
    ensures |Render(L)| > 0 && Render(L)[0] == if L[0].Hole? then 'X' else L[0].c
  {
  }

  /** Restoring placeholder `k` as `v` on the layout: each placeholder of
      pattern `k` becomes the characters of `v`. */
  function Subst(L: Layout, k: nat, v: string): Layout
    decreases |L|
  {
    if |L| == 0 then []
    else (if L[0] == Hole(k) then Lits(v) else [L[0]]) + Subst(L[1..], k, v)
  }

  /** No placeholder is directly followed by a letter, a digit or another
      placeholder, so restore never pads a span with a space. */
  predicate FusionFree(L: Layout)
    decreases |L|
  {
    |L| == 0 || ((L[0].Hole? && |L| > 1 ==> L[1].Lit? && !IsAlnum(L[1].c)) && FusionFree(L[1..]))
  }

  /** Restoring a placeholder as the span it stands for keeps the text the
      layout stands for. */
  lemma {:induction false} ExpandSubst(L: Layout, k: nat, spans: seq<string>)
    requires k < |spans|
    ensures Expand(Subst(L, k, spans[k]), spans) == Expand(L, spans)
    decreases |L|
  {
    if |L| > 0 {
      var rest := Subst(L[1..], k, spans[k]);
      ExpandSubst(L[1..], k, spans);
      if L[0] == Hole(k) {
        ExpandLits(spans[k], rest, spans);
      } else {
        assert ([L[0]] + rest)[1..] == rest;
      }
    }
  }

  /** Restoring placeholder `k` leaves no placeholder of pattern `k` and adds
      no other. */
  lemma {:induction false} SubstPieces(L: Layout, k: nat, v: string)
    ensures forall x :: x in Subst(L, k, v) ==> x.Lit? || (x in L && x != Hole(k))
    decreases |L|
  {
    if |L| > 0 {
      SubstPieces(L[1..], k, v);
      assert forall x :: x in L[1..] ==> x in L;
      assert forall x :: x in Lits(v) ==> x.Lit?;
    }
  }

  lemma {:induction false} FusionFreeLits(v: string, Z: Layout)
    requires FusionFree(Z)
    ensures FusionFree(Lits(v) + Z)
    decreases |v|
  {
    if |v| == 0 {
      assert Lits(v) + Z == Z;
    } else {
      var X := Lits(v) + Z;
      assert X[0] == Lit(v[0]) && X[1..] == Lits(v[1..]) + Z;
      FusionFreeLits(v[1..], Z);
    }
  }

  /** Restoring a placeholder keeps every remaining placeholder clear of
      letters and digits. */
  lemma {:induction false} FusionFreeSubst(L: Layout, k: nat, v: string)
    requires FusionFree(L)
    ensures FusionFree(Subst(L, k, v))
    decreases |L|
  {
    if |L| > 0 {
      var rest := Subst(L[1..], k, v);
      FusionFreeSubst(L[1..], k, v);
      if L[0] == Hole(k) {
        FusionFreeLits(v, rest);
      } else {
        var X := [L[0]] + rest;
        assert X[1..] == rest;
        if |L| > 1 && L[0].Hole? {
          assert L[1..][0] == L[1];
          assert rest == [L[1]] + Subst(L[2..], k, v) by {
            assert L[1..][1..] == L[2..];
          }
        }
      }
    }
  }

  /** An unmasked run is also there in the text the layout stands for, as
      long as it can only meet a placeholder at its first character. */
  lemma {:induction false} LitStart(L: Layout, w: string, spans: seq<string>)
    requires |L| > 0 && L[0].Lit?
    requires StartsWith(Render(L), w)
    requires forall d :: 1 <= d < |w| ==> w[d] != 'X'
    ensures StartsWith(Expand(L, spans), w)
    decreases |w|
  {
    if |w| > 0 {
      var L' := L[1..];
      var c := L[0].c;
      RenderHead(L);
      assert Expand(L, spans) == [c] + Expand(L', spans);
      StartsWithTail(c, Render(L'), w);
      var w' := w[1..];
      if |w'| > 0 {
        assert |L'| > 0;
        RenderHead(L');
        assert w'[0] == w[1];
        assert forall d :: 1 <= d < |w'| ==> w'[d] == w[d + 1];
        LitStart(L', w', spans);
      }
      StartsWithCons(c, Expand(L', spans), w);
    }
  }

  /** If the text the layout stands for has no `XASDF`, no placeholder
      occurrence in the working copy starts at a source character. */
  lemma LitNoStart(L: Layout, spans: seq<string>, k: nat)
    requires |L| > 0 && L[0].Lit?
    requires !Contains(Expand(L, spans), Prefix)
    ensures Render(L) == [L[0].c] + Render(L[1..])
    ensures NoStartWithin([L[0].c], Render(L[1..]), Placeholder(k))
  {
    var head, tail := [L[0].c], Render(L[1..]);
    forall d | 0 <= d < 1
      ensures !StartsWith(head[d..] + tail, Placeholder(k))
    {
      assert head[d..] + tail == Render(L);
      if StartsWith(Render(L), Placeholder(k)) {
        LitStart(L, Placeholder(k), spans);
        PlaceholderHasPrefix(Expand(L, spans), k);
      }
    }
  }

  lemma ExpandTailClean(L: Layout, spans: seq<string>)
    requires |L| > 0 && !Contains(Expand(L, spans), Prefix)
    ensures !Contains(Expand(L[1..], spans), Prefix)
  {
    if Contains(Expand(L[1..], spans), Prefix) {
      ContainsSuffix(ExpandPiece(L[0], spans), Expand(L[1..], spans), Prefix);
    }
  }

  lemma RenderCons(x: Piece, rest: Layout)
    ensures Render([x] + rest) == RenderPiece(x) + Render(rest)
  {
    assert ([x] + rest)[1..] == rest;
  }

  lemma TailHolesBelow(L: Layout, n: nat)
    requires |L| > 0 && HolesBelow(L, n)
    ensures HolesBelow(L[1..], n)
    ensures L[0].Hole? ==> L[0].k < n
  {
    assert L[0] in L;
    assert forall x :: x in L[1..] ==> x in L;
  }

  /** The head step of `RestoreScan` at a placeholder of pattern `k`: it
      is replaced by the span. */
  lemma RestoreScanSame(L: Layout, k: nat, v: string)
    requires |L| > 0 && L[0] == Hole(k)
    requires ReplaceAll(Render(L[1..]), Placeholder(k), v) == Render(Subst(L[1..], k, v))
    ensures ReplaceAll(Render(L), Placeholder(k), v) == Render(Subst(L, k, v))
  {
    RenderHead(L);
    ReplaceAllPrefix(Render(L[1..]), Placeholder(k), v);
    RenderLits(v, Subst(L[1..], k, v));
  }

  /** The head step of `RestoreScan` at a piece where no occurrence of the
      needle starts: the scan passes over the piece. */
  lemma ScanPastHead(L: Layout, k: nat, v: string, head: string, needle: string)
    requires |L| > 0 && L[0] != Hole(k) && |needle| > 0
    requires RenderPiece(L[0]) == head && NoStartWithin(head, Render(L[1..]), needle)
    requires ReplaceAll(Render(L[1..]), needle, v) == Render(Subst(L[1..], k, v))
    ensures ReplaceAll(Render(L), needle, v) == Render(Subst(L, k, v))
  {
    RenderCons(L[0], L[1..]);
    assert [L[0]] + L[1..] == L;
    ReplaceAllSkip(head, Render(L[1..]), needle, v);
    RenderCons(L[0], Subst(L[1..], k, v));
  }

  /** The head step of `RestoreScan` at another pattern's placeholder: the
      scan passes over it. */
  lemma RestoreScanOther(L: Layout, k: nat, v: string)
    requires |L| > 0 && L[0].Hole? && L[0].k != k && L[0].k < 100 && k < 100
    requires ReplaceAll(Render(L[1..]), Placeholder(k), v) == Render(Subst(L[1..], k, v))
    ensures ReplaceAll(Render(L), Placeholder(k), v) == Render(Subst(L, k, v))
  {
    PlaceholderNoStart(L[0].k, k, Render(L[1..]));
    ScanPastHead(L, k, v, Placeholder(L[0].k), Placeholder(k));
  }

  /** The head step of `RestoreScan` at an unmasked character: the scan
      passes over it. */
  lemma RestoreScanLit(L: Layout, spans: seq<string>, k: nat, v: string)
    requires |L| > 0 && L[0].Lit?
    requires !Contains(Expand(L, spans), Prefix)
    requires ReplaceAll(Render(L[1..]), Placeholder(k), v) == Render(Subst(L[1..], k, v))
    ensures ReplaceAll(Render(L), Placeholder(k), v) == Render(Subst(L, k, v))
  {
    LitNoStart(L, spans, k);
    ScanPastHead(L, k, v, [L[0].c], Placeholder(k));
  }

  /** Restore's `str.replace(placeholder, span)` is exactly the layout
      substitution: every occurrence of the placeholder in the working copy
      is a placeholder piece. */
  lemma {:induction false} RestoreScan(L: Layout, spans: seq<string>, k: nat, v: string)
    requires k < 100 && HolesBelow(L, 100)
    requires !Contains(Expand(L, spans), Prefix)
    ensures ReplaceAll(Render(L), Placeholder(k), v) == Render(Subst(L, k, v))
    decreases |L|
  {
    if |L| > 0 {
      ExpandTailClean(L, spans);
      TailHolesBelow(L, 100);
      RestoreScan(L[1..], spans, k, v);
      if L[0] == Hole(k) {
        RestoreScanSame(L, k, v);
      } else if L[0].Hole? {
        RestoreScanOther(L, k, v);
      } else {
        RestoreScanLit(L, spans, k, v);
      }
    }
  }

  /** The head step of `AfterFirstScan`. */
  lemma AfterFirstHead(L: Layout, spans: seq<string>, k: nat)
    requires |L| > 0 && k < 100 && (L[0].Hole? ==> L[0].k < 100) && FusionFree(L)
    requires !Contains(Expand(L, spans), Prefix)
    requires L[0] != Hole(k) ==> !FusedAfterFirst(Render(L[1..]), Placeholder(k))
    ensures !FusedAfterFirst(Render(L), Placeholder(k))
  {
    var p, tail := Placeholder(k), Render(L[1..]);
    RenderHead(L);
    match L[0]
    case Hole(j) =>
      if j == k {
        assert Render(L)[..|p|] == p;
        if |L| > 1 {
          RenderHead(L[1..]);
          assert Render(L)[|p|] == tail[0];
        }
      } else {
        PlaceholderNoStart(j, k, tail);
        AfterFirstSkip(Placeholder(j), tail, p);
      }
    case Lit(c) =>
      LitNoStart(L, spans, k);
      AfterFirstSkip([c], tail, p);
  }

  /** Under the same conditions, the first occurrence of the placeholder is
      not followed by a letter or a digit, so restore uses the plain
      replacement. */
  lemma {:induction false} AfterFirstScan(L: Layout, spans: seq<string>, k: nat)
    requires k < 100 && HolesBelow(L, 100) && FusionFree(L)
    requires !Contains(Expand(L, spans), Prefix)
    ensures !FusedAfterFirst(Render(L), Placeholder(k))
    decreases |L|
  {
    if |L| > 0 {
      ExpandTailClean(L, spans);
      TailHolesBelow(L, 100);
      if L[0] != Hole(k) {
        AfterFirstScan(L[1..], spans, k);
      }
      AfterFirstHead(L, spans, k);
    }
  }

  /** One step of the restore loop on the layout. */
  lemma RestoreOneLayout(L: Layout, spans: seq<string>, k: nat, v: string)
    requires k < 100 && HolesBelow(L, 100) && FusionFree(L)
    requires !Contains(Expand(L, spans), Prefix)
    ensures RestoreOne(Render(L), Placeholder(k), v) == Render(Subst(L, k, v))
  {
    RestoreScan(L, spans, k, v);
    AfterFirstScan(L, spans, k);
  }

  /** Without placeholders the working copy is the text itself. */
  lemma {:induction false} NoHoles(L: Layout, spans: seq<string>)
    requires HolesAmong(L, [])
    ensures Render(L) == Expand(L, spans)
    decreases |L|
  {
    if |L| > 0 {
      assert L[0] in L;
      assert forall x :: x in L[1..] ==> x in L;
      NoHoles(L[1..], spans);
    }
  }

  lemma HolesAmongBelow(L: Layout, ks: seq<nat>, n: nat)
    requires HolesAmong(L, ks) && forall j :: 0 <= j < |ks| ==> ks[j] < n
    ensures HolesBelow(L, n)
  {
    forall x | x in L && x.Hole?
      ensures x.k < n
    {
      var j :| 0 <= j < |ks| && ks[j] == x.k;
    }
  }

  /** After restoring the first listed pattern, the remaining placeholders
      belong to the rest of the list. */
  lemma SubstHoles(L: Layout, ks: seq<nat>, v: string)
    requires |ks| > 0 && HolesAmong(L, ks)
    ensures HolesAmong(Subst(L, ks[0], v), ks[1..])
  {
    SubstPieces(L, ks[0], v);
    assert ks == [ks[0]] + ks[1..];
  }

  /** Restoring removes placeholders and adds none. */
  lemma SubstBelow(L: Layout, k: nat, v: string, n: nat)
    requires HolesBelow(L, n)
    ensures HolesBelow(Subst(L, k, v), n)
  {
    SubstPieces(L, k, v);
  }

  /** A seven-character text followed by no letter or digit does not begin
      a text whose eighth character is a digit. */
  lemma ShortBeforeWide(p: string, tail: string, q: string)
    requires |p| == 7 && |q| > 7 && '0' <= q[7] <= '9'
    requires |tail| > 0 ==> !IsAlnum(tail[0])
    ensures !StartsWith(p + tail, q)
  {
    if |tail| > 0 {
      assert (p + tail)[7] == tail[0];
    }
  }

  /** The head of the layout starts no occurrence of a placeholder from
      index 100 on: a short placeholder would have to be followed by a
      digit. */
  lemma WideHeadNoStart(L: Layout, spans: seq<string>, k: nat)
    requires |L| > 0 && k >= 100 && (L[0].Hole? ==> L[0].k < 100) && FusionFree(L)
    requires !Contains(Expand(L, spans), Prefix)
    ensures Render(L) == RenderPiece(L[0]) + Render(L[1..])
    ensures NoStartWithin(RenderPiece(L[0]), Render(L[1..]), Placeholder(k))
  {
    RenderHead(L);
    match L[0]
    case Lit(c) =>
      LitNoStart(L, spans, k);
    case Hole(j) =>
      var p, q, tail := Placeholder(j), Placeholder(k), Render(L[1..]);
      PlaceholderTailNoStart(j, k, tail);
      var m := WidePlaceholderPrefix(k);
      if |L| > 1 {
        RenderHead(L[1..]);
        assert !IsAlnum(tail[0]);
      }
      forall d | 0 <= d < |p|
        ensures !StartsWith(p[d..] + tail, q)
      {
        if d == 0 {
          assert p[0..] == p;
          ShortBeforeWide(p, tail, q);
        } else {
          assert p[d..] == p[1..][d - 1..];
        }
      }
  }

  /** When no placeholder is fused, a placeholder from index 100 on
      does not occur in a working copy whose placeholders are all short. */
  lemma {:induction false} WideKeyAbsent(L: Layout, spans: seq<string>, k: nat)
    requires k >= 100 && HolesBelow(L, 100) && FusionFree(L)
    requires !Contains(Expand(L, spans), Prefix)
    ensures !Contains(Render(L), Placeholder(k))
    decreases |L|
  {
    if |L| > 0 {
      ExpandTailClean(L, spans);
      TailHolesBelow(L, 100);
      WideKeyAbsent(L[1..], spans, k);
      WideHeadNoStart(L, spans, k);
      ContainsSkip(RenderPiece(L[0]), Render(L[1..]), Placeholder(k));
    }
  }

  /** Skipping a key whose placeholder never reached the working copy. */
  lemma HolesAmongSkip(L: Layout, ks: seq<nat>)
    requires |ks| > 0 && ks[0] >= 100 && HolesAmong(L, ks) && HolesBelow(L, 100)
    ensures HolesAmong(L, ks[1..])
  {
    assert ks == [ks[0]] + ks[1..];
  }

  /** Entry `j` of the map is the placeholder of pattern `ks[j]` with that
      pattern's span. */
  predicate KeyedBy(d: Dict, ks: seq<nat>, spans: seq<string>) {
    |d| == |ks| && forall j :: 0 <= j < |ks| ==> ks[j] < |spans| && d[j] == (Placeholder(ks[j]), spans[ks[j]])
  }

  lemma KeyedByTail(d: Dict, ks: seq<nat>, spans: seq<string>)
    requires |ks| > 0 && KeyedBy(d, ks, spans)
    ensures KeyedBy(d[1..], ks[1..], spans)
  {
    forall j | 0 <= j < |ks| - 1
      ensures ks[1..][j] < |spans| && d[1..][j] == (Placeholder(ks[1..][j]), spans[ks[1..][j]])
    {
      assert ks[1..][j] == ks[j + 1] && d[1..][j] == d[j + 1];
    }
  }

  /** One key of the restore loop on the layout. A key from pattern index
      100 on has no placeholder in the working copy and leaves it as it is. */
  lemma RestoreStep(d: Dict, ks: seq<nat>, L: Layout, spans: seq<string>) returns (L': Layout)
    requires |ks| > 0 && KeyedBy(d, ks, spans)
    requires HolesAmong(L, ks) && HolesBelow(L, 100) && FusionFree(L)
    requires !Contains(Expand(L, spans), Prefix)
    ensures RestoreOne(Render(L), d[0].0, d[0].1) == Render(L')
    ensures HolesAmong(L', ks[1..]) && HolesBelow(L', 100) && FusionFree(L')
    ensures Expand(L', spans) == Expand(L, spans)
  {
    var k := ks[0];
    if k < 100 {
      RestoreOneLayout(L, spans, k, spans[k]);
      L' := Subst(L, k, spans[k]);
      SubstHoles(L, ks, spans[k]);
      SubstBelow(L, k, spans[k], 100);
      FusionFreeSubst(L, k, spans[k]);
      ExpandSubst(L, k, spans);
    } else {
      WideKeyAbsent(L, spans, k);
      HolesAmongSkip(L, ks);
      L' := L;
    }
  }

  /** The restore loop dissolves the placeholders one key at a time; once
      every key has been handled the working copy is the source text. */
  lemma {:induction false} RestoreLayout(d: Dict, ks: seq<nat>, L: Layout, spans: seq<string>)
    requires KeyedBy(d, ks, spans)
    requires HolesAmong(L, ks) && HolesBelow(L, 100) && FusionFree(L)
    requires !Contains(Expand(L, spans), Prefix)
    ensures RestoreAll(d, Render(L)) == Expand(L, spans)
    decreases |d|
  {
    if |d| == 0 {
      NoHoles(L, spans);
    } else {
      var L' := RestoreStep(d, ks, L, spans);
      KeyedByTail(d, ks, spans);
      RestoreLayout(d[1..], ks[1..], L', spans);
    }
  }

  /** The span each pattern masks: its last match, or nothing. */
  function Spans(found: seq<seq<string>>): (spans: seq<string>)
    ensures |spans| == |found|
    ensures forall k :: 0 <= k < |found| && |found[k]| > 0 ==> spans[k] == Last(found[k])
  {
    seq(|found|, k requires 0 <= k < |found| => if |found[k]| > 0 then Last(found[k]) else "")
  }

  /** Every match of one pattern is the same guarded span. */
  predicate SingleGuardedMatch(ms: seq<string>) {
    forall a :: 0 <= a < |ms| ==> ms[a] == ms[0] && Guarded(ms[a])
  }

  /** The layout after the first `i` patterns have masked their first match. */
  function Masks(found: seq<seq<string>>, s: string, i: nat): Layout
    requires i <= |found|
    decreases i
  {
    if i == 0 then Lits(s)
    else
      var L := Masks(found, s, i - 1);
      var ms := found[i - 1];
      if |ms| > 0 && |ms[0]| > 0 then PieceReplace(L, ms[0], i - 1) else L
  }

  /** The inner loop of protect for a pattern whose matches are all one
      guarded span: the first replacement masks every occurrence, the
      others find nothing left to replace. */
  lemma {:induction false} ApplyMatchesText(ms: seq<string>, m: string, i: nat, st: WorkState, L: Layout)
    requires Guarded(m) && forall a :: 0 <= a < |ms| ==> ms[a] == m
    requires st.text == Render(L)
    ensures ApplyMatches(ms, Placeholder(i), st).text
      == if |ms| == 0 then Render(L) else Render(PieceReplace(L, m, i))
    decreases |ms|
  {
    if |ms| > 0 {
      var L' := PieceReplace(L, m, i);
      var st' := WorkState(Put(st.dict, Placeholder(i), ms[0]), ReplaceAll(st.text, ms[0], Placeholder(i)));
      assert st'.text == Render(L') by {
        ScanMatch(L, m, i);
      }
      assert ApplyMatches(ms[1..], Placeholder(i), st').text == Render(L') by {
        ApplyMatchesText(ms[1..], m, i, st', L');
        PieceReplaceTwice(L, m, i);
      }
    }
  }

  /** `Masks` and `MatchedPatterns` one pattern further, when that pattern
      matched. */
  lemma MaskedStepShape(found: seq<seq<string>>, s: string, i: nat)
    requires 0 < i <= |found| && |found[i - 1]| > 0 && |found[i - 1][0]| > 0
    ensures Masks(found, s, i) == PieceReplace(Masks(found, s, i - 1), found[i - 1][0], i - 1)
    ensures MatchedPatterns(found, i) == MatchedPatterns(found, i - 1) + [i - 1]
  {
  }

  /** A matched pattern's step masks its span in the working copy and in
      the layout alike. */
  lemma LayoutMatchedText(found: seq<seq<string>>, s: string, i: nat, st: WorkState)
    requires 0 < i <= |found| && |found[i - 1]| > 0 && SingleGuardedMatch(found[i - 1])
    requires st.text == Render(Masks(found, s, i - 1))
    ensures ApplyMatches(found[i - 1], Placeholder(i - 1), st).text == Render(Masks(found, s, i))
  {
    var ms := found[i - 1];
    assert Guarded(ms[0]) && forall a :: 0 <= a < |ms| ==> ms[a] == ms[0];
    MaskedStepShape(found, s, i);
    ApplyMatchesText(ms, ms[0], i - 1, st, Masks(found, s, i - 1));
  }

  /** A matched pattern's step keeps the text the layout stands for. */
  lemma LayoutMatchedExpand(found: seq<seq<string>>, s: string, i: nat)
    requires 0 < i <= |found| && |found[i - 1]| > 0 && SingleGuardedMatch(found[i - 1])
    requires Expand(Masks(found, s, i - 1), Spans(found)) == s
    ensures Expand(Masks(found, s, i), Spans(found)) == s
  {
    var ms := found[i - 1];
    assert Guarded(ms[0]);
    MaskedStepShape(found, s, i);
    assert Spans(found)[i - 1] == Last(ms) == ms[0];
    ExpandPieceReplace(Masks(found, s, i - 1), ms[0], i - 1, Spans(found));
  }

  /** A matched pattern's step only adds placeholders of that pattern. */
  lemma LayoutMatchedHoles(found: seq<seq<string>>, s: string, i: nat)
    requires 0 < i <= |found| && |found[i - 1]| > 0 && SingleGuardedMatch(found[i - 1])
    requires HolesAmong(Masks(found, s, i - 1), MatchedPatterns(found, i - 1))
    ensures HolesAmong(Masks(found, s, i), MatchedPatterns(found, i))
  {
    var ms := found[i - 1];
    assert Guarded(ms[0]);
    MaskedStepShape(found, s, i);
    PieceReplaceHoles(Masks(found, s, i - 1), ms[0], i - 1);
  }

  /** One pattern's step of `ProtectLayout`, on the match lists alone. */
  lemma LayoutStep(found: seq<seq<string>>, s: string, i: nat, st: WorkState)
    requires 0 < i <= |found| && SingleGuardedMatch(found[i - 1])
    requires var L := Masks(found, s, i - 1);
      && st.text == Render(L)
      && Expand(L, Spans(found)) == s
      && HolesAmong(L, MatchedPatterns(found, i - 1))
    ensures var L := Masks(found, s, i);
      && ApplyMatches(found[i - 1], Placeholder(i - 1), st).text == Render(L)
      && Expand(L, Spans(found)) == s
      && HolesAmong(L, MatchedPatterns(found, i))
  {
    if |found[i - 1]| > 0 {
      LayoutMatchedText(found, s, i, st);
      LayoutMatchedExpand(found, s, i);
      LayoutMatchedHoles(found, s, i);
    } else {
      assert MatchedPatterns(found, i) == MatchedPatterns(found, i - 1);
    }
  }

  /** The invariant of protect's outer loop after `i` patterns: the
      working copy renders the layout `Masks`, that layout still stands for
      the source text, and its placeholders belong to the patterns that
      matched. */
  ghost predicate LayoutAfter(patterns: seq<Matcher>, s: string, i: nat)
    requires i <= |patterns|
  {
    var found := AllMatches(patterns, s);
    var L := Masks(found, s, i);
    && Working(patterns, s, i).text == Render(L)
    && Expand(L, Spans(found)) == s
    && HolesAmong(L, MatchedPatterns(found, i))
  }

  /** Protect's outer loop keeps `LayoutAfter`. */
  lemma {:induction false} ProtectLayout(patterns: seq<Matcher>, s: string, i: nat)
    requires i <= |patterns|
    requires forall k :: 0 <= k < |patterns| ==> SingleGuardedMatch(MatchesAt(patterns, s, k))
    ensures LayoutAfter(patterns, s, i)
    decreases i
  {
    if i == 0 {
      ProtectLayoutStart(patterns, s);
    } else {
      ProtectLayout(patterns, s, i - 1);
      ProtectLayoutStep(patterns, s, i);
    }
  }

  /** Before any pattern, the working copy is the source text. */
  lemma ProtectLayoutStart(patterns: seq<Matcher>, s: string)
    ensures LayoutAfter(patterns, s, 0)
  {
    RenderLits(s, []);
    ExpandLits(s, [], Spans(AllMatches(patterns, s)));
    assert Lits(s) + [] == Lits(s);
  }

  /** The step of `ProtectLayout` from `i - 1` patterns to `i`. */
  lemma ProtectLayoutStep(patterns: seq<Matcher>, s: string, i: nat)
    requires 0 < i <= |patterns|
    requires forall k :: 0 <= k < |patterns| ==> SingleGuardedMatch(MatchesAt(patterns, s, k))
    requires LayoutAfter(patterns, s, i - 1)
    ensures LayoutAfter(patterns, s, i)
  {
    var found := AllMatches(patterns, s);
    var st := Working(patterns, s, i - 1);
    var ms := patterns[i - 1](st.text);
    assert found[i - 1] == MatchesAt(patterns, s, i - 1) == ms;
    assert SingleGuardedMatch(found[i - 1]);
    LayoutStep(found, s, i, st);
  }

  /** In the text `t`, no occurrence of `p` is directly followed by a letter
      or a digit. */
  predicate NotFusedAfter(t: string, p: string) {
    forall j :: 0 <= j < |t| && StartsWith(t[j..], p) && j + |p| < |t| ==> !IsAlnum(t[j + |p|])
  }

  /** In the text `t`, no placeholder of the first `n` patterns is directly
      followed by a letter or a digit. */
  predicate NoFusedPlaceholder(t: string, n: nat) {
    forall k :: 0 <= k < n ==> NotFusedAfter(t, Placeholder(k))
  }

  lemma NotFusedSuffix(x: string, y: string, p: string)
    requires NotFusedAfter(x + y, p)
    ensures NotFusedAfter(y, p)
  {
    forall j | 0 <= j < |y| && StartsWith(y[j..], p) && j + |p| < |y|
      ensures !IsAlnum(y[j + |p|])
    {
      assert (x + y)[|x| + j..] == y[j..];
      assert (x + y)[|x| + j + |p|] == y[j + |p|];
    }
  }

  lemma NoFusedSuffix(x: string, y: string, n: nat)
    requires NoFusedPlaceholder(x + y, n)
    ensures NoFusedPlaceholder(y, n)
  {
    forall k | 0 <= k < n
      ensures NotFusedAfter(y, Placeholder(k))
    {
      NotFusedSuffix(x, y, Placeholder(k));
    }
  }

  lemma NotFusedAtStart(t: string, p: string)
    requires NotFusedAfter(t, p) && StartsWith(t, p) && |p| < |t|
    ensures !IsAlnum(t[|p|])
  {
    assert t[0..] == t;
  }

  lemma FusedHead(L: Layout, n: nat)
    requires |L| > 1 && L[0].Hole? && L[0].k < n && NoFusedPlaceholder(Render(L), n)
    ensures L[1].Lit? && !IsAlnum(L[1].c)
  {
    var t, p := Render(L), Placeholder(L[0].k);
    RenderHead(L);
    RenderHead(L[1..]);
    assert t[..|p|] == p;
    NotFusedAtStart(t, p);
    assert t[|p|] == Render(L[1..])[0];
  }

  /** The condition on the masked text, read on its layout. */
  lemma {:induction false} FusionFreeFromText(L: Layout, n: nat)
    requires HolesBelow(L, n) && NoFusedPlaceholder(Render(L), n)
    ensures FusionFree(L)
    decreases |L|
  {
    if |L| > 0 {
      var head, tail := RenderPiece(L[0]), Render(L[1..]);
      RenderHead(L);
      NoFusedSuffix(head, tail, n);
      TailHolesBelow(L, n);
      FusionFreeFromText(L[1..], n);
      if L[0].Hole? && |L| > 1 {
        FusedHead(L, n);
      }
    }
  }

  /** A placeholder from pattern index 100 on is fused by itself: it
      begins with an earlier short placeholder followed by a digit. */
  lemma WideHeadFused(L: Layout, n: nat)
    requires |L| > 0 && L[0].Hole? && L[0].k < n && NoFusedPlaceholder(Render(L), n)
    ensures L[0].k < 100
  {
    var k := L[0].k;
    if k >= 100 {
      var m := WidePlaceholderPrefix(k);
      var t, p := Render(L), Placeholder(k);
      RenderHead(L);
      assert t[..|p|] == p;
      assert t[..7] == p[..7];
      assert t[7] == p[7];
      NotFusedAtStart(t, Placeholder(m));
    }
  }

  /** So when no placeholder in the masked text is fused, every
      placeholder in it is short, however many patterns there are. */
  lemma {:induction false} NoWideHoles(L: Layout, n: nat)
    requires HolesBelow(L, n) && NoFusedPlaceholder(Render(L), n)
    ensures HolesBelow(L, 100)
    decreases |L|
  {
    if |L| > 0 {
      RenderHead(L);
      NoFusedSuffix(RenderPiece(L[0]), Render(L[1..]), n);
      TailHolesBelow(L, n);
      NoWideHoles(L[1..], n);
      if L[0].Hole? {
        WideHeadFused(L, n);
      }
      forall x | x in L && x.Hole?
        ensures x.k < 100
      {
        var i :| 0 <= i < |L| && L[i] == x;
        if i > 0 {
          assert L[1..][i - 1] == x;
        }
      }
    }
  }

  /** The conditions under which restore undoes protect: a source text
      without `XASDF`; every match of a pattern the same guarded span; and no
      placeholder in the masked text directly followed by a letter or a
      digit, where restore would insert a space. The last condition also
      keeps out every placeholder from pattern index 100 on
      (`NoWideHoles`), so no placeholder in the masked text occurs inside
      another. */
  predicate Restorable(s: string, exclude: Option<seq<Matcher>>) {
    && !Contains(s, Prefix)
    && (exclude.Some? ==> forall k :: 0 <= k < |exclude.value| ==> SingleGuardedMatch(MatchesAt(exclude.value, s, k)))
    && NoFusedPlaceholder(Protect(s, EnablePatterns(exclude)).text, if exclude.Some? then |exclude.value| else 0)
  }

  /** Entry `j` of the expected map pairs the placeholder of the `j`-th
      matched pattern with that pattern's span. */
  lemma ExpectedDictSpans(found: seq<seq<string>>)
    ensures var ks := MatchedPatterns(found, |found|);
      var d, spans := ExpectedDict(found, ks), Spans(found);
      && |d| == |ks|
      && forall j :: 0 <= j < |ks| ==> ks[j] < |found| && d[j] == (Placeholder(ks[j]), spans[ks[j]])
  {
    var ks := MatchedPatterns(found, |found|);
    var d, spans := ExpectedDict(found, ks), Spans(found);
    MatchedPatternsSpec(found, |found|);
    ExpectedDictAt(found, ks);
    forall j | 0 <= j < |ks|
      ensures d[j] == (Placeholder(ks[j]), spans[ks[j]])
    {
      assert LastMatch(found, ks[j]) == spans[ks[j]];
    }
  }

  /** A map whose keys are the placeholders of the patterns `ks` restores a
      masked text with no fused placeholder to the text it stands for. */
  lemma RestoreUnfused(d: Dict, ks: seq<nat>, L: Layout, spans: seq<string>, n: nat)
    requires KeyedBy(d, ks, spans) && |spans| == n
    requires HolesAmong(L, ks) && NoFusedPlaceholder(Render(L), n)
    requires !Contains(Expand(L, spans), Prefix)
    ensures RestoreAll(d, Render(L)) == Expand(L, spans)
  {
    HolesAmongBelow(L, ks, n);
    FusionFreeFromText(L, n);
    NoWideHoles(L, n);
    RestoreLayout(d, ks, L, spans);
  }

  /** The expected map, its patterns and their spans, in the form the
      restore loop is stated in. */
  lemma ExpectedEntries(found: seq<seq<string>>) returns (d: Dict, ks: seq<nat>, spans: seq<string>)
    ensures ks == MatchedPatterns(found, |found|) && d == ExpectedDict(found, ks) && spans == Spans(found)
    ensures KeyedBy(d, ks, spans) && |spans| == |found|
  {
    ks := MatchedPatterns(found, |found|);
    d, spans := ExpectedDict(found, ks), Spans(found);
    ExpectedDictSpans(found);
  }

  /** Restoring the expected map on a layout of the text gives the text
      back, when no placeholder is fused to a letter or digit. */
  lemma RestoreExpected(found: seq<seq<string>>, s: string, L: Layout)
    requires !Contains(s, Prefix)
    requires Expand(L, Spans(found)) == s && HolesAmong(L, MatchedPatterns(found, |found|))
    requires NoFusedPlaceholder(Render(L), |found|)
    ensures RestoreAll(ExpectedDict(found, MatchedPatterns(found, |found|)), Render(L)) == s
  {
    var d, ks, spans := ExpectedEntries(found);
    RestoreUnfused(d, ks, L, spans, |found|);
  }

  /** Restore undoes protect under those conditions. Translation is left
      out: the masked text is restored as it is. */
  lemma RestoreUndoesProtect(s: string, exclude: Option<seq<Matcher>>)
    requires Restorable(s, exclude)
    ensures var masked := Protect(s, EnablePatterns(exclude));
      Restore(masked.placeholders, masked.text) == s
  {
    var patterns := EnablePatterns(exclude);
    if patterns.Some? && HasTrigger(s) {
      var ps := patterns.value;
      var n := |ps|;
      var found := AllMatches(ps, s);
      var st := Working(ps, s, n);
      ProtectLayout(ps, s, n);
      WorkingDict(ps, s, n);
      assert Protect(s, patterns) == Masked(Some(st.dict), st.text);
      RestoreExpected(found, s, Masks(found, s, n));
    }
  }

  lemma FirstPlaceholders()
    ensures Placeholder(0) == "XASDF00" && Placeholder(1) == "XASDF01"
  {
    assert Decimal(0) == "0" && Decimal(1) == "1";
    assert ZFill("0", 2) == "00" && ZFill("1", 2) == "01";
  }

  lemma MaskSecondStep()
    ensures ReplaceAll("XASDF00", "00", "XASDF01") == "XASDFXASDF01"
  {
    var x: string := "XASDF";
    assert NoStartWithin(x, "00", "00") by {
      forall d | 0 <= d < |x|
        ensures !StartsWith(x[d..] + "00", "00")
      {
        assert (x[d..] + "00")[0] == x[d];
      }
    }
    assert ReplaceAll(x + "00", "00", "XASDF01") == x + "XASDF01" by {
      ReplaceAllSkip(x, "00", "00", "XASDF01");
      ReplaceAllPrefix([], "00", "XASDF01");
      assert "00" + [] == "00";
      assert "XASDF01" + [] == "XASDF01";
    }
    assert x + "00" == "XASDF00";
    assert x + "XASDF01" == "XASDFXASDF01";
  }

  /** Neither placeholder starts before position 5 of `XASDFXASDF01`. */
  lemma NoEarlyPlaceholder(j: nat, p: string)
    requires j < 5 && (p == "XASDF00" || p == "XASDF01")
    ensures !StartsWith("XASDFXASDF01"[j..], p)
  {
    var t: string := "XASDFXASDF01";
    if j == 0 {
      assert t[5] != p[5];
    } else {
      assert t[j..][0] == t[j] != p[0];
    }
  }

  lemma FindSecondKey()
    ensures Find("XASDFXASDF01", "XASDF01") == 5
  {
    var t, p: string := "XASDFXASDF01", "XASDF01";
    forall j | 0 <= j < 5
      ensures !StartsWith(t[j..], p)
    {
      NoEarlyPlaceholder(j, p);
    }
    assert t[5..] == p;
    ContainsAt(t, p, 5);
  }

  lemma ReplaceSecondKey()
    ensures ReplaceAll("XASDFXASDF01", "XASDF01", "00") == "XASDF00"
  {
    var t, p: string := "XASDFXASDF01", "XASDF01";
    var x: string := "XASDF";
    forall d | 0 <= d < |x|
      ensures !StartsWith(x[d..] + p, p)
    {
      assert x[d..] + p == t[d..];
      NoEarlyPlaceholder(d, p);
    }
    assert x + p == t;
    ReplaceAllSkip(x, p, p, "00");
    ReplaceAllPrefix([], p, "00");
    assert p + [] == p;
  }

  lemma RestoreSecondKey()
    ensures RestoreOne("XASDFXASDF01", "XASDF01", "00") == "XASDF00"
  {
    var t, p: string := "XASDFXASDF01", "XASDF01";
    FindSecondKey();
    FindThenIndex(t, p);
    ReplaceSecondKey();
  }

  lemma RestoreFirstKeyAbsent()
    ensures !Contains("XASDFXASDF01", "XASDF00")
  {
    var t, p: string := "XASDFXASDF01", "XASDF00";
    forall j | 0 <= j <= |t|
      ensures !StartsWith(t[j..], p)
    {
      if j < 5 {
        NoEarlyPlaceholder(j, p);
      } else if j == 5 {
        assert t[5..][6] != p[6];
      }
    }
    ContainsNowhere(t, p);
  }

  lemma NotFusedExample(p: string)
    requires p == "XASDF00" || p == "XASDF01"
    ensures NotFusedAfter("XASDFXASDF01", p)
  {
    var t: string := "XASDFXASDF01";
    forall j | 0 <= j < 5
      ensures !StartsWith(t[j..], p)
    {
      NoEarlyPlaceholder(j, p);
    }
  }

  lemma MaskedTextNotFused()
    ensures NoFusedPlaceholder("XASDFXASDF01", 2)
  {
    forall k | 0 <= k < 2
      ensures NotFusedAfter("XASDFXASDF01", Placeholder(k))
    {
      FirstPlaceholders();
      assert k == 0 || k == 1;
      NotFusedExample(Placeholder(k));
    }
  }

  /** Two exclude patterns for the example below: the first finds `*` in
      the text `*`, the second finds `00` in `XASDF00`. */
  function StarPattern(t: string): seq<string> {
    if t == "*" then ["*"] else []
  }

  function ZerosPattern(t: string): seq<string> {
    if t == "XASDF00" then ["00"] else []
  }

  lemma ExampleFirstPattern()
    ensures Working([StarPattern, ZerosPattern], "*", 1) == WorkState([("XASDF00", "*")], "XASDF00")
  {
    var ps: seq<Matcher> := [StarPattern, ZerosPattern];
    FirstPlaceholders();
    ReplaceAllPrefix([], "*", "XASDF00");
    assert "*" + [] == "*" && "XASDF00" + [] == "XASDF00";
    var st0 := WorkState([], "*");
    var st1 := WorkState([("XASDF00", "*")], "XASDF00");
    assert Working(ps, "*", 0) == st0;
    assert ps[0]("*") == ["*"] && ["*"][1..] == [];
    assert ApplyMatches(["*"], "XASDF00", st0) == ApplyMatches([], "XASDF00", st1);
  }

  lemma ExampleSecondPattern()
    ensures Working([StarPattern, ZerosPattern], "*", 2)
      == WorkState([("XASDF00", "*"), ("XASDF01", "00")], "XASDFXASDF01")
  {
    var ps: seq<Matcher> := [StarPattern, ZerosPattern];
    FirstPlaceholders();
    ExampleFirstPattern();
    MaskSecondStep();
    var st1 := WorkState([("XASDF00", "*")], "XASDF00");
    var st2 := WorkState([("XASDF00", "*"), ("XASDF01", "00")], "XASDFXASDF01");
    assert ps[1]("XASDF00") == ["00"] && ["00"][1..] == [];
    assert Put(st1.dict, "XASDF01", "00") == st2.dict;
    assert ApplyMatches(["00"], "XASDF01", st1) == ApplyMatches([], "XASDF01", st2);
  }

  lemma ExampleRestore()
    ensures RestoreAll([("XASDF00", "*"), ("XASDF01", "00")], "XASDFXASDF01") == "XASDF00"
  {
    var d := [("XASDF00", "*"), ("XASDF01", "00")];
    var t := "XASDFXASDF01";
    RestoreFirstKeyAbsent();
    RestoreSecondKey();
    assert RestoreAll(d, t) == RestoreAll(d[1..], t);
    assert RestoreAll(d[1..], t) == RestoreAll([], "XASDF00");
  }

  /** The guarded-span condition cannot be dropped: here the second pattern
      matches `00` inside the placeholder the first one left, and the text
      comes back with a stray placeholder although every other condition of
      `RestoreUndoesProtect` holds. */
  lemma UnguardedMatchBreaksRoundTrip()
    ensures var masked := Protect("*", EnablePatterns(Some([StarPattern, ZerosPattern])));
      && !Contains("*", Prefix)
      && masked.text == "XASDFXASDF01"
      && NoFusedPlaceholder(masked.text, 2)
      && Restore(masked.placeholders, masked.text) == "XASDF00"
  {
    var s := "*";
    var ps: seq<Matcher> := [StarPattern, ZerosPattern];
    var d := [("XASDF00", "*"), ("XASDF01", "00")];
    var t := "XASDFXASDF01";
    assert !Contains(s, Prefix) by {
      assert !StartsWith(s, Prefix) && !StartsWith(s[1..], Prefix);
    }
    assert HasTrigger(s) by { assert s[0] == '*'; }
    assert EnablePatterns(Some(ps)) == Some(ps);
    ExampleSecondPattern();
    assert Protect(s, Some(ps)) == Masked(Some(d), t);
    ExampleRestore();
    MaskedTextNotFused();
  }

  /** An exclude pattern that finds two different spans in `* _`. */
  function TwoSpans(t: string): seq<string> {
    if t == "* _" then ["*", "_"] else []
  }

  /** A text none of whose characters starts `p` does not contain `p`. */
  lemma NoHeadNoContains(s: string, p: string)
    requires |p| > 0 && p[0] !in s
    ensures !Contains(s, p)
  {
    forall j | 0 <= j <= |s|
      ensures !StartsWith(s[j..], p)
    {
      if j < |s| {
        assert s[j..][0] == s[j];
      }
    }
    ContainsNowhere(s, p);
  }

  /** The replacement scan copies a stretch that holds no character the
      needle starts with. */
  lemma NoHeadSkip(x: string, y: string, needle: string, repl: string)
    requires |needle| > 0 && needle[0] !in x
    ensures ReplaceAll(x + y, needle, repl) == x + ReplaceAll(y, needle, repl)
  {
    forall d | 0 <= d < |x|
      ensures !StartsWith(x[d..] + y, needle)
    {
      assert (x[d..] + y)[0] == x[d];
    }
    ReplaceAllSkip(x, y, needle, repl);
  }

  /** The two masking steps of the example, for a key `ph` without `_`. */
  lemma MaskTwoSpans(ph: string)
    requires '_' !in ph + " "
    ensures ReplaceAll("* _", "*", ph) == ph + " _"
    ensures ReplaceAll(ph + " _", "_", ph) == ph + " " + ph
  {
    var y: string := " _";
    assert "*" + y == "* _" && y + [] == y;
    ReplaceAllPrefix(y, "*", ph);
    NoHeadSkip(y, [], "*", ph);
    var x := ph + " ";
    assert x + "_" == ph + " _" && "_" + [] == "_";
    NoHeadSkip(x, "_", "_", ph);
    ReplaceAllPrefix([], "_", ph);
  }

  /** Restoring a key that occurs twice, separated by a blank. */
  lemma RestoreTwice(ph: string, m: string)
    requires |ph| > 0 && ph[0] != ' ' && ph[0] !in ph[1..]
    ensures RestoreOne(ph + " " + ph, ph, m) == m + " " + m
    ensures NotFusedAfter(ph + " " + ph, ph)
  {
    var t := ph + " " + ph;
    assert t == ph + (" " + ph) && StartsWith(t, ph);
    assert AfterFirst(t, ph) == Some(' ');
    ReplaceAllPrefix(" " + ph, ph, m);
    NoHeadSkip(" ", ph, ph, m);
    assert ph + [] == ph;
    ReplaceAllPrefix([], ph, m);
    forall j | 0 <= j < |t| && StartsWith(t[j..], ph) && j + |ph| < |t|
      ensures !IsAlnum(t[j + |ph|])
    {
      assert t[j] == t[j..][0] == ph[0];
      assert j != |ph|;
      assert t[j + |ph|] == ' ';
    }
  }

  /** The characters of the first placeholder that the example relies on. */
  lemma FirstPlaceholderChars()
    ensures '_' !in Placeholder(0) + " "
    ensures |Placeholder(0)| > 0 && Placeholder(0)[0] == 'X' && 'X' !in Placeholder(0)[1..]
  {
    FirstPlaceholders();
  }

  /** Protecting `* _` with the pattern that finds `*` and `_`: both spans
      get the first key, which keeps `_`. */
  lemma TwoSpansProtect()
    ensures Protect("* _", EnablePatterns(Some([TwoSpans])))
      == Masked(Some([(Placeholder(0), "_")]), Placeholder(0) + " " + Placeholder(0))
  {
    var s := "* _";
    var ps: seq<Matcher> := [TwoSpans];
    var ph := Placeholder(0);
    FirstPlaceholderChars();
    assert HasTrigger(s) by { assert s[0] == '*'; }
    assert EnablePatterns(Some(ps)) == Some(ps);
    MaskTwoSpans(ph);
    var st0 := WorkState([], s);
    var st1 := WorkState([(ph, "*")], ph + " _");
    var st2 := WorkState([(ph, "_")], ph + " " + ph);
    assert Working(ps, s, 0) == st0 && ps[0](s) == ["*", "_"];
    assert ["*", "_"][1..] == ["_"] && ["_"][1..] == [];
    assert ApplyMatches(["*", "_"], ph, st0) == ApplyMatches(["_"], ph, st1);
    assert ApplyMatches(["_"], ph, st1) == st2;
  }

  /** The example meets the conditions other than one distinct span: no
      `XASDF` in the text, and each span found is guarded. */
  lemma TwoSpansGuarded()
    ensures !Contains("* _", Prefix)
    ensures MatchesAt([TwoSpans], "* _", 0) == ["*", "_"] && Guarded("*") && Guarded("_")
  {
    NoHeadNoContains("* _", Prefix);
    NoHeadNoContains("*", Prefix);
    NoHeadNoContains("_", Prefix);
    var ps: seq<Matcher> := [TwoSpans];
    assert Working(ps, "* _", 0).text == "* _";
  }

  /** One distinct span per pattern cannot be dropped either: a pattern
      that finds two different guarded spans keeps only the second under its
      placeholder, so both come back as the second, although every other
      condition of `RestoreUndoesProtect` holds. */
  lemma TwoSpansBreakRoundTrip() returns (ph: string, masked: Masked)
    ensures ph == Placeholder(0)
    ensures masked == Protect("* _", EnablePatterns(Some([TwoSpans])))
    ensures !Contains("* _", Prefix)
    ensures MatchesAt([TwoSpans], "* _", 0) == ["*", "_"] && Guarded("*") && Guarded("_")
    ensures masked.text == ph + " " + ph && NoFusedPlaceholder(masked.text, 1)
    ensures Restore(masked.placeholders, masked.text) == "_" + " " + "_"
  {
    ph := Placeholder(0);
    TwoSpansProtect();
    TwoSpansGuarded();
    FirstPlaceholderChars();
    masked := Masked(Some([(ph, "_")]), ph + " " + ph);
    RestoreTwice(ph, "_");
    assert Restore(masked.placeholders, masked.text) == RestoreAll([], RestoreOne(masked.text, ph, "_"));
    forall k | 0 <= k < 1
      ensures NotFusedAfter(masked.text, Placeholder(k))
    {
      assert k == 0;
    }
  }
}

=== FILE: strings.dfy ===
/** The Python `str` operations the markup guard relies on, over `seq<char>`:
    `in`, `find`, `replace`, indexing and `isalnum`, with the prefix test
    `StartsWith` as a helper for stating them. Indexing also covers negative
    positions, which the guard never reads: its index is at least 6. */
module Strings {
  import opened Results

  /** `p` is a prefix of `s`. */
  predicate StartsWith(s: string, p: string) {
    |p| <= |s| && s[..|p|] == p
  }

  /** `sub` occurs somewhere in `s` (Python `sub in s`). */
  predicate Contains(s: string, sub: string)
    decreases |s|
  {
    StartsWith(s, sub) || (|s| > 0 && Contains(s[1..], sub))
  }

  /** An occurrence at position `j` is an occurrence. */
  lemma {:induction false} ContainsAt(s: string, sub: string, j: nat)
    requires j <= |s| && StartsWith(s[j..], sub)
    ensures Contains(s, sub)
    decreases j
  {
    if j > 0 {
      assert s[1..][j - 1..] == s[j..];
      ContainsAt(s[1..], sub, j - 1);
    }
  }

  /** A text in which `sub` starts at no position does not contain it. */
  lemma {:induction false} ContainsNowhere(s: string, sub: string)
    requires forall j :: 0 <= j <= |s| ==> !StartsWith(s[j..], sub)
    ensures !Contains(s, sub)
    decreases |s|
  {
    assert s[0..] == s;
    if |s| > 0 {
      assert forall j :: 0 <= j <= |s| - 1 ==> s[1..][j..] == s[j + 1..];
      ContainsNowhere(s[1..], sub);
    }
  }

  /** An occurrence in a suffix is an occurrence in the whole text. */
  lemma {:induction false} ContainsSuffix(x: string, y: string, sub: string)
    requires Contains(y, sub)
    ensures Contains(x + y, sub)
    decreases |x|
  {
    if |x| == 0 {
      assert x + y == y;
    } else {
      assert (x + y)[1..] == x[1..] + y;
      ContainsSuffix(x[1..], y, sub);
    }
  }

  /** An occurrence is never longer than the text it occurs in. */
  lemma {:induction false} ContainsLength(s: string, sub: string)
    requires Contains(s, sub)
    ensures |sub| <= |s|
    decreases |s|
  {
    if !StartsWith(s, sub) {
      ContainsLength(s[1..], sub);
    }
  }

  /** An occurrence as long as the text is the text itself. */
  lemma ContainsSameLength(s: string, sub: string)
    requires Contains(s, sub) && |sub| == |s|
    ensures s == sub
  {
    if !StartsWith(s, sub) {
      ContainsLength(s[1..], sub);
    }
  }

  /** Python `s.find(sub)`: the lowest position where `sub` starts, or -1. */
  function Find(s: string, sub: string): (r: int)
    decreases |s|
    ensures -1 <= r <= |s|
    ensures r == -1 <==> !Contains(s, sub)
    ensures r >= 0 ==> StartsWith(s[r..], sub)
    ensures r >= 0 ==> forall j :: 0 <= j < r ==> !StartsWith(s[j..], sub)
  {
    if StartsWith(s, sub) then 0
    else if |s| == 0 then -1
    else
      var r' := Find(s[1..], sub);
      assert forall j :: 1 <= j <= |s| ==> s[1..][j - 1..] == s[j..];
      if r' == -1 then -1 else r' + 1
  }

  /** Python `s.replace(needle, repl)`: every non-overlapping occurrence of
      `needle`, scanning left to right, is replaced; an empty `needle`
      inserts `repl` before every character and at the end. */
  function ReplaceAll(s: string, needle: string, repl: string): (r: string)
    decreases |s|
    ensures |needle| > 0 && !Contains(s, needle) ==> r == s
  {
    if |needle| == 0 then
      (if |s| == 0 then repl else repl + [s[0]] + ReplaceAll(s[1..], needle, repl))
    else if |s| == 0 then []
    else if StartsWith(s, needle) then repl + ReplaceAll(s[|needle|..], needle, repl)
    else [s[0]] + ReplaceAll(s[1..], needle, repl)
  }

  /** `str.replace` keeps the text before the first occurrence of the
      needle, puts the replacement for that occurrence, and carries on
      after it. */
  lemma ReplaceAllAtFind(s: string, needle: string, repl: string) returns (i: nat)
    requires |needle| > 0 && Contains(s, needle)
    ensures i == Find(s, needle) && i + |needle| <= |s|
    ensures ReplaceAll(s, needle, repl) == s[..i] + repl + ReplaceAll(s[i + |needle|..], needle, repl)
  {
    i := Find(s, needle);
    ReplaceAllAt(s, needle, repl, i);
  }

  /** The same, for any position that is the first occurrence. */
  lemma ReplaceAllAt(s: string, needle: string, repl: string, i: nat)
    requires |needle| > 0 && i <= |s| && StartsWith(s[i..], needle)
    requires forall j :: 0 <= j < i ==> !StartsWith(s[j..], needle)
    ensures i + |needle| <= |s|
    ensures ReplaceAll(s, needle, repl) == s[..i] + repl + ReplaceAll(s[i + |needle|..], needle, repl)
  {
    FirstSplit(s, needle, i);
    ReplaceAllFirst(s[..i], s[i + |needle|..], needle, repl);
  }

  /** Around its first occurrence at `i`, a text is the part before, the
      occurrence, and the part after, and no occurrence starts earlier. */
  lemma FirstSplit(s: string, p: string, i: nat)
    requires i <= |s| && StartsWith(s[i..], p)
    requires forall j :: 0 <= j < i ==> !StartsWith(s[j..], p)
    ensures i + |p| <= |s|
    ensures s == s[..i] + p + s[i + |p|..]
    ensures NoStartWithin(s[..i], p + s[i + |p|..], p)
  {
    var x, z := s[..i], s[i + |p|..];
    assert s[i..] == p + z by {
      PrefixSplit(s[i..], p);
    }
    assert s == x + (p + z);
    forall d | 0 <= d < |x|
      ensures !StartsWith(x[d..] + (p + z), p)
    {
      assert x[d..] + (p + z) == s[d..];
    }
  }

  /** Replacing in a text made of a stretch without occurrences, an
      occurrence, and the rest. */
  lemma ReplaceAllFirst(x: string, z: string, needle: string, repl: string)
    requires |needle| > 0 && NoStartWithin(x, needle + z, needle)
    ensures ReplaceAll(x + needle + z, needle, repl) == x + repl + ReplaceAll(z, needle, repl)
  {
    assert x + needle + z == x + (needle + z);
    ReplaceAllSkip(x, needle + z, needle, repl);
    ReplaceAllPrefix(z, needle, repl);
  }

  /** A text that starts with `p` is `p` followed by the rest. */
  lemma PrefixSplit(y: string, p: string)
    requires StartsWith(y, p)
    ensures y == p + y[|p|..]
  {
    assert y == y[..|p|] + y[|p|..];
  }

  /** Splitting off the head character commutes with appending. */
  lemma ConsAppend(s: string, t: string)
    requires |s| > 0
    ensures [s[0]] + (s[1..] + t) == s + t
  {
    assert s == [s[0]] + s[1..];
  }

  /** A prefix of `[c] + a` is `c` followed by a prefix of `a`. */
  lemma StartsWithTail(c: char, a: string, w: string)
    requires |w| > 0 && StartsWith([c] + a, w)
    ensures w[0] == c && StartsWith(a, w[1..])
  {
    assert a[..|w| - 1] == ([c] + a)[1..|w|];
  }

  lemma StartsWithCons(c: char, a: string, w: string)
    requires |w| > 0 && w[0] == c && StartsWith(a, w[1..])
    ensures StartsWith([c] + a, w)
  {
    assert ([c] + a)[..|w|] == [c] + a[..|w| - 1];
  }

  /** No occurrence of `p` starts inside `x` in the text `x + y`. */
  ghost predicate NoStartWithin(x: string, y: string, p: string) {
    forall d :: 0 <= d < |x| ==> !StartsWith(x[d..] + y, p)
  }

  /** A replacement scan passes unchanged over a stretch where no
      occurrence of the needle starts. */
  lemma {:induction false} ReplaceAllSkip(x: string, y: string, needle: string, repl: string)
    requires |needle| > 0 && NoStartWithin(x, y, needle)
    ensures ReplaceAll(x + y, needle, repl) == x + ReplaceAll(y, needle, repl)
    decreases |x|
  {
    if |x| == 0 {
      assert x + y == y;
    } else {
      assert x[0..] + y == x + y;
      assert !StartsWith(x + y, needle);
      assert (x + y)[0] == x[0] && (x + y)[1..] == x[1..] + y;
      assert ReplaceAll(x + y, needle, repl) == [x[0]] + ReplaceAll(x[1..] + y, needle, repl);
      forall d | 0 <= d < |x[1..]|
        ensures !StartsWith(x[1..][d..] + y, needle)
      {
        assert x[1..][d..] == x[d + 1..];
      }
      ReplaceAllSkip(x[1..], y, needle, repl);
      ConsAppend(x, ReplaceAll(y, needle, repl));
    }
  }

  /** A text has no occurrence when its head starts none and its tail
      contains none. */
  lemma {:induction false} ContainsSkip(x: string, y: string, sub: string)
    requires NoStartWithin(x, y, sub) && !Contains(y, sub)
    ensures !Contains(x + y, sub)
    decreases |x|
  {
    if |x| == 0 {
      assert x + y == y;
    } else {
      assert x[0..] + y == x + y;
      assert (x + y)[1..] == x[1..] + y;
      forall d | 0 <= d < |x[1..]|
        ensures !StartsWith(x[1..][d..] + y, sub)
      {
        assert x[1..][d..] == x[d + 1..];
      }
      ContainsSkip(x[1..], y, sub);
    }
  }

  /** A text that begins with the needle begins with the replacement. */
  lemma ReplaceAllPrefix(y: string, needle: string, repl: string)
    requires |needle| > 0
    ensures ReplaceAll(needle + y, needle, repl) == repl + ReplaceAll(y, needle, repl)
  {
    assert (needle + y)[..|needle|] == needle;
    assert (needle + y)[|needle|..] == y;
  }

  /** Python `s[k]`: a negative `k` counts from the end; `None` is the
      `IndexError` raised outside `-|s| <= k < |s|`. */
  function PyIndex(s: string, k: int): (r: Option<char>)
    ensures r.Some? <==> -|s| <= k < |s|
    ensures 0 <= k < |s| ==> r == Some(s[k])
    ensures -|s| <= k < 0 ==> r == Some(s[|s| + k])
  {
    if 0 <= k < |s| then Some(s[k])
    else if -|s| <= k < 0 then Some(s[|s| + k])
    else None
  }

  /** Python `c.isalnum()` restricted to ASCII letters and digits. */
  predicate IsAlnum(c: char) {
    ('a' <= c <= 'z') || ('A' <= c <= 'Z') || ('0' <= c <= '9')
  }

  /** The ASCII digits and letters, spelled out. */
  const AsciiDigits: string := "0123456789"
  const AsciiUpper: string := "ABCDEFGHIJKLMNOPQRSTUVWXYZ"
  const AsciiLower: string := "abcdefghijklmnopqrstuvwxyz"

  /** `IsAlnum` accepts exactly the 62 characters spelled out above. */
  lemma IsAlnumExactly(c: char)
    ensures IsAlnum(c) <==> c in AsciiDigits || c in AsciiUpper || c in AsciiLower
  {
    SpelledOut(AsciiDigits, '0', '9', c);
    UpperSpelled(c);
    LowerSpelled(c);
  }

  lemma UpperSpelled(c: char)
    ensures c in AsciiUpper <==> 'A' <= c <= 'Z'
  {
    SpelledOut(AsciiUpper, 'A', 'Z', c);
  }

  lemma LowerSpelled(c: char)
    ensures c in AsciiLower <==> 'a' <= c <= 'z'
  {
    SpelledOut(AsciiLower, 'a', 'z', c);
  }

  /** A text listing the consecutive characters from `lo` to `hi` holds
      exactly those characters. */
  lemma SpelledOut(s: string, lo: char, hi: char, c: char)
    requires |s| == hi as int - lo as int + 1
    requires forall k :: 0 <= k < |s| ==> s[k] as int == lo as int + k
    ensures c in s <==> lo <= c <= hi
  {
    if lo <= c <= hi {
      assert s[c as int - lo as int] == c;
    }
  }

  /** A one-character text occurs in `s` exactly when the character is in
      `s`: Python's substring `in` agrees with membership for single
      characters. */
  lemma {:induction false} ContainsChar(s: string, c: char)
    ensures Contains(s, [c]) <==> c in s
    decreases |s|
  {
    if |s| > 0 {
      ContainsChar(s[1..], c);
      assert s == [s[0]] + s[1..];
    }
  }

  /** The character right after the first occurrence of `p` in `s`, or
      `None` when `p` does not occur or its first occurrence ends the text. */
  function AfterFirst(s: string, p: string): Option<char>
    decreases |s|
  {
    if StartsWith(s, p) then (if |p| < |s| then Some(s[|p|]) else None)
    else if |s| == 0 then None
    else AfterFirst(s[1..], p)
  }

  /** The first occurrence of `p` is immediately followed by a letter or digit. */
  predicate FusedAfterFirst(s: string, p: string) {
    AfterFirst(s, p).Some? && IsAlnum(AfterFirst(s, p).value)
  }

  /** Reading position `find(p) + len(p)` reads the character after the
      first occurrence, and raises `IndexError` exactly when that occurrence
      ends the text. */
  lemma {:induction false} FindThenIndex(s: string, p: string)
    requires Contains(s, p)
    ensures PyIndex(s, Find(s, p) + |p|) == AfterFirst(s, p)
    decreases |s|
  {
    if !StartsWith(s, p) {
      FindThenIndex(s[1..], p);
    }
  }

  /** Like `ReplaceAllSkip`, for the lookahead after the first occurrence. */
  lemma {:induction false} AfterFirstSkip(x: string, y: string, p: string)
    requires NoStartWithin(x, y, p)
    ensures AfterFirst(x + y, p) == AfterFirst(y, p)
    decreases |x|
  {
    if |x| == 0 {
      assert x + y == y;
    } else {
      assert x[0..] + y == x + y;
      assert !StartsWith(x + y, p);
      assert (x + y)[1..] == x[1..] + y;
      forall d | 0 <= d < |x[1..]|
        ensures !StartsWith(x[1..][d..] + y, p)
      {
        assert x[1..][d..] == x[d + 1..];
      }
      AfterFirstSkip(x[1..], y, p);
    }
  }
}
